=== FILE: README.md ===
# CIBIL risk manager: a Dafny model of the scoring server

This project models the core of the CIBIL risk manager, an Express/MongoDB service. A
signed-in user submits five credit factors and gets back an estimated CIBIL-style score
(300 to 900), a risk tier and a list of improvement tips. The assessment is stored under
the user's account, and the dashboard lists, charts, edits and deletes the stored
assessments. Accounts sign in with a password followed by a second factor: an emailed
six-digit code or an authenticator app.

The model has six modules:

- `Wrappers`: `Option` and `Result`.
- `Scoring`: `calculateCIBIL`, `getRiskLevel` and `getSuggestions`, on exact reals.
- `Requests`: the request boundary of the scoring routes. It covers the missing-field gate
  of `POST /analyze`, JavaScript's `Number(x) || 0` and `creditMix || "poor"` coercions,
  and the `isNaN` checks that follow them.
- `Accounts`: the account document and the authentication routes as a state machine over a
  directory of accounts. The routes are signup, login, MFA verification, MFA settings and
  authenticator provisioning.
- `Assessments`: the assessment collection and the owner-scoped routes `POST /analyze`,
  `GET /users`, `DELETE /users/:id` and `PUT /users/:id`.
- `Dashboard`: the client's score colour and background bands, the tier histogram behind
  the pie chart, the average score and the oldest-first trend series.

Some behaviours of the code that the model makes explicit:

- The clamp in `calculateCIBIL` never binds. After the inputs are clamped, the weighted sum
  already lies in [300, 900].
- The inputs `(100, 30, 5, "good", 0)` score 300 + 210 + 126 + 45 + 60 + 60 = 801.
- A mix string other than "good", "average" or "poor" earns no mix points and draws no mix
  tip.
- The tip rules read the unclamped inputs, while the score reads clamped copies.
- Both `isNaN` checks are dead code. `Number(x) || 0` is never NaN, so a non-numeric field
  is scored as 0 instead of being rejected.
- Two kinds of code are accepted in the `verify-mfa` email branch without being a pending
  code: a missing `code` on an account that never received one, and `"code": null` after
  any successful verification. The model keeps this as-written route next to a corrected
  one (see Findings).

Inputs from outside the program are parameters:

- bcrypt's compare and speakeasy's TOTP check are oracles (`Accounts.Oracles`).
- `Math.random()` is a real in [0, 1).
- `Date.now` is the `now` argument.
- speakeasy's `generateSecret` result is an argument.
- Object ids are naturals. An account is looked up by its `_id`, which in a valid
  directory is also its position. Assessment ids come from a counter.

## Model

| member | source | states |
|---|---|---|
| Scoring.Round | server/server.js:87 | `Math.round` on an exact value lands within half a unit of its argument, with halves rounding up |
| Scoring.RawScore | server/server.js:69-86 | after clamping the inputs, the weighted sum of the five factors always lies in [300, 900] |
| Scoring.Score | server/server.js:69-88 | the estimated score is an integer in [300, 900] |
| Scoring.ClampNeverBinds | server/server.js:87 | the final clamp never changes the rounded sum: the score is the rounded sum and within half a point of it |
| Scoring.ScoreMonotone | server/server.js:78-87 | a larger weighted sum never gives a smaller score, after rounding and clamping |
| Scoring.ScoreNonDecreasingInPayment | server/server.js:73-78 | raising the payment history alone never lowers the score, including past the 100% clamp |
| Scoring.ScoreNonDecreasingInAge | server/server.js:75-80 | a longer credit age alone never lowers the score, including past the ten-year cap |
| Scoring.ScoreNonIncreasingInUtilization | server/server.js:74-79 | raising utilization alone never raises the score |
| Scoring.ScoreNonIncreasingInInquiries | server/server.js:76-85 | more hard inquiries alone never raise the score, including past five |
| Scoring.ScoreFollowsMixRank | server/server.js:82-83 | "good" scores at least as high as "average", which scores at least as high as any other mix string |
| Scoring.ScoreExamples | server/server.js:69-88 | concrete scores: the dashboard defaults give 801, a weak profile 471, the extremes 900 and 300 |
| Scoring.RiskLevel | server/server.js:90-96 | a score reaches a tier exactly when it meets that tier's threshold (750/700/650/600), so the tier is the best one whose threshold is met |
| Scoring.RiskLevelMonotone | server/server.js:90-96 | a higher score never gets a worse tier |
| Scoring.RiskLevelBoundaries | server/server.js:90-96 | each threshold is inclusive: 750 is Excellent and 749 Good, and so on down to 600 Poor and 599 Very Poor |
| Scoring.LabelInjective | server/server.js:91-95 | distinct tiers have distinct labels, so a stored label names one tier |
| Scoring.TierOfLabel | server/server.js:91-95 | the inverse of the label: it finds the tier of any of the five labels, and only of those |
| Scoring.PushKeepsOrder | server/server.js:99-116 | pushing a tip of higher rule rank keeps the tip list in rule order |
| Scoring.RuleTips | server/server.js:101-116 | the five threshold rules emit a tip exactly when its rule fires, the streak tip only at 90 to 98 and the utilization tip quoting the raw utilization |
| Scoring.ChainShape | server/server.js:101-116 | whatever fires, the pushes come out in rule order, and there are at most five because the two payment rules exclude each other |
| Scoring.Suggestions | server/server.js:98-123 | one to five tips in rule order, each present exactly when its rule fires on the unclamped inputs; the affirming tip appears exactly when no rule fires, and then alone |
| Scoring.RuleOrderDeterminesList | server/server.js:98-123 | two tip lists in rule order with the same members are equal, so membership and order fix the list |
| Scoring.SuggestionsUnique | server/server.js:98-123 | any list in rule order whose members are exactly the firing tips is the list `getSuggestions` returns |
| Scoring.SuggestionExampleStrong | server/server.js:118-120 | the dashboard defaults get the affirming tip alone |
| Scoring.SuggestionExampleWorst | server/server.js:101-116 | a profile on which every rule fires gets five tips, in rule order |
| Scoring.SuggestionExampleUnknownMix | server/server.js:82-116 | an unknown mix earns no points and no tip; 706.5 rounds up to 707 |
| Scoring.Assess | server/server.js:346-348 | the outputs of one profile: the score is the profile's rounded weighted sum, within half a point of it and in [300, 900]; the tier is that score's tier; the tips are exactly the rules that fire on the profile, in rule order |
| Requests.Coerce | server/server.js:333-337 | `Number(x) \|\| 0` is never NaN, and it is the field's value when the field is numeric and 0 otherwise (undefined, null, non-numeric) |
| Requests.CoerceMix | server/server.js:336 | the coerced mix is never empty: a non-empty mix is kept, and every falsy one becomes "poor" |
| Requests.CoerceMixIdempotent | server/server.js:336 | a coerced mix is truthy, so coercing it again gives it back |
| Requests.NaNCheckIsDead | server/server.js:331-344 | after `Number(x) \|\| 0` no field is NaN, so the `isNaN` check accepts every field list and yields the profile the fields denote (each number its value or 0, the mix or "poor") |
| Requests.CheckAnalyze | server/server.js:317-344 | the `/analyze` gate rejects exactly a falsy name or mix or an undefined/null number, always with "All fields are required"; an accepted body yields the name and the coerced profile |
| Requests.CheckUpdate | server/server.js:461-472 | the PUT route's coercion accepts every body and yields the coerced profile |
| Requests.NonNumericScoresAsZero | server/server.js:331-344 | a non-numeric payment history passes the gate and is scored as 0 |
| Accounts.ParseMfaType | server/User.js:8 | the `mfaType` enum accepts exactly "email", "app" and "none" |
| Accounts.FindByEmail | server/server.js:138 | the lookup finds an account with the email, or reports that none has it |
| Accounts.FindByEmailUnique | server/User.js:4 | with the unique email index, the lookup returns the one account with that email |
| Accounts.FindById | server/server.js:204 | a found position holds an account whose `_id` is the requested id, and nothing found means no account has that id |
| Accounts.FindByIdIsPosition | server/server.js:204 | in a valid directory the lookup of id i finds position i, and an id outside the directory finds nothing |
| Accounts.FindByIdSameIds | server/server.js:204 | the lookup reads only the ids, so two directories with the same ids at the same positions give the same answer |
| Accounts.SaveKeepsIds | server/server.js:231-232 | writing back an account under its own id leaves every lookup by id unchanged |
| Accounts.MfaCode | server/server.js:165 | the drawn code lies in [100000, 999999] |
| Accounts.MfaCodeCoversRange | server/server.js:165 | every six-digit code is drawn for some random value |
| Accounts.DecimalString | server/server.js:165 | `toString` of a natural is a non-empty string of decimal digits |
| Accounts.DecimalRoundTrip | server/server.js:165 | reading the decimal string back gives the number |
| Accounts.DecimalLength | server/server.js:165 | a number with k digits renders as k characters |
| Accounts.CodeHasSixDigits | server/server.js:165-166 | the stored code is exactly six decimal digits |
| Accounts.StrictEqualsIsValueEquality | server/server.js:228 | the `===` between the stored and the submitted code holds exactly when both are the same JavaScript value: both `undefined`, both `null`, or the same string; a numeric code never matches |
| Accounts.Signup | server/server.js:134-150 | an email on file is refused and nothing is written; otherwise exactly one account is appended, with MFA on and type 'none', and a token for it is issued; an empty name or email fails validation and writes nothing |
| Accounts.Login | server/server.js:153-198 | an unknown email and a wrong password give the same answer and change nothing; with MFA on, the email branch (type 'email', 'none' or unset) stores a fresh code in that account alone, and the app branch writes nothing; with MFA off a token is issued |
| Accounts.VerifyApp | server/server.js:207-225 | the app branch accepts exactly the override code, or a present code the TOTP check accepts for the stored secret; a missing secret is the 500; with a secret on file every other code, including a missing or `null` one, is the 400 "Invalid Authenticator Code" |
| Accounts.VerifyMfaAsWritten | server/server.js:201-240 | the route as written: an unknown id is refused; a failure writes nothing; the email branch passes when the stored and submitted codes are strictly equal in JavaScript's sense (undefined/undefined and null/null included) or the override is sent, and a pass clears the code to null and issues that account's token; the app branch is `VerifyApp` and writes nothing |
| Accounts.VerifyAsWrittenAcceptsMissingCode | server/server.js:228 | a freshly signed-up account passes verification with no code at all and gets a token |
| Accounts.VerifyAsWrittenAcceptsNullAfterUse | server/server.js:228-232 | after one successful verification, `"code": null` passes again |
| Accounts.VerifyMfa | server/server.js:201-240 | the corrected route: an unknown id is refused; a failure writes nothing and issues no token; the email branch passes exactly for the pending code string or the override, then clears the code and issues that account's token; the app branch is `VerifyApp` and writes nothing |
| Accounts.VerifyMfaAgreesOnCodeStrings | server/server.js:228 | for any submitted code string, the corrected route and the route as written give the same answer and the same directory |
| Accounts.EmailCodeSingleUse | server/server.js:162-232 | the code a login stores is accepted once, and the same code is refused afterwards unless it is the override |
| Accounts.UpdateMfa | server/server.js:243-254 | `mfaEnabled` is always overwritten and `mfaType` only when a non-empty value is sent; a value outside the enum fails the save and writes nothing; no other field changes |
| Accounts.SetupAppMfa | server/server.js:257-283 | an unknown id is a 500; a secret on file is returned unchanged, with its URL rebuilt, and nothing is written; otherwise the generated secret is stored in that account alone and returned with the generator's URL |
| Accounts.OtpauthUrl | server/server.js:274 | the rebuilt URL is the otpauth prefix, the account's email as the label, and the secret, which reads back between the `secret` and `issuer` parameters |
| Accounts.SetupAppMfaIdempotent | server/server.js:261-276 | provisioning twice returns the same secret, and the second call writes nothing |
| Accounts.StepPreservesValid | server/server.js:134-283 | every authentication route keeps emails unique and ids in place, and none removes an account; this holds with the program's verify-mfa route and with the corrected one |
| Accounts.SecretWriteOnce | server/server.js:257-283 | once an account has a secret, no route replaces it, with either verify-mfa route |
| Accounts.NewAccountLoginSendsEmailCode | server/server.js:142-166 | a new account's first login with the right password takes the email branch and stores a six-digit code |
| Assessments.Build | server/server.js:346-358 | a built record carries exactly the outputs its inputs determine, with a score in [300, 900] |
| Assessments.Analyze | server/server.js:302-373 | a rejected request writes nothing; an accepted one appends exactly one record owned by the caller, stamped now, with the coerced inputs and their outputs, and answers those outputs |
| Assessments.OwnedBy | server/server.js:429 | the owner filter keeps each of the owner's records as often as stored, and no other record |
| Assessments.Insert | server/server.js:429 | inserting into a list sorted newest first keeps it sorted and adds exactly that element |
| Assessments.SortDescending | server/server.js:429 | the sort returns a permutation of its input, largest key first |
| Assessments.SortNewestFirst | server/server.js:429 | `.sort({ createdAt: -1 })` returns a permutation, newest first |
| Assessments.List | server/server.js:427-436 | `GET /users` returns exactly the caller's records, each as often as stored, newest first |
| Assessments.AnalyzeThenList | server/server.js:302-436 | an accepted analysis is listed back to its owner with the same name, time, score and tips |
| Assessments.FindRecord | server/server.js:441 | the id-and-owner filter finds a record matching both, or reports that none matches |
| Assessments.RemoveAt | server/server.js:441 | removing one record shifts the later ones down and drops exactly that record |
| Assessments.Delete | server/server.js:439-447 | the delete succeeds exactly when the caller owns a record with that id and removes that one record; otherwise nothing changes; other owners' records are never touched |
| Assessments.Update | server/server.js:449-501 | the 400 of the NaN check is never given; the caller's matching record gets the coerced inputs and recomputed outputs, keeps its id, owner and creation time, and takes the new name when one is sent; with no match the answer is 404 and nothing changes; other owners' records are never touched |
| Assessments.AppendPreservesValid | server/server.js:352-360 | appending a consistent record under a fresh id keeps ids distinct and records consistent |
| Assessments.AnalyzePreservesValid | server/server.js:302-373 | `POST /analyze` keeps ids distinct and every stored output consistent with its inputs |
| Assessments.DeletePreservesValid | server/server.js:439-447 | a delete keeps the collection valid |
| Assessments.ReplacePreservesValid | server/server.js:478-487 | replacing a record by a consistent one with the same id keeps the collection valid |
| Assessments.UpdatePreservesValid | server/server.js:449-501 | `PUT /users/:id` keeps the collection valid |
| Assessments.RemoveAtDropsId | server/server.js:441 | with distinct ids, removing a record leaves no record with its id |
| Assessments.DeleteRemovesId | server/server.js:439-447 | after a successful delete, no record with that id is left |
| Assessments.DeleteThenList | server/server.js:427-447 | a deleted record no longer appears in its owner's listing |
| Assessments.ListedRecordIsConsistent | server/server.js:427-436 | every listed record belongs to the caller and carries the score, tier and tips of its own inputs |
| Dashboard.ScoreColor | client/src/pages/Dashboard.js:32-37 | the three upper colour bands are exactly the Excellent, Good and Average tiers; Poor and Very Poor share the danger colour |
| Dashboard.ScoreBg | client/src/pages/Dashboard.js:39-44 | the backgrounds use the same bands as the colours |
| Dashboard.ColorAndBgAgree | client/src/pages/Dashboard.js:32-44 | two scores share a colour exactly when they share a background |
| Dashboard.TierCounts | client/src/pages/Dashboard.js:154-156 | the counts have the five tier labels plus every label seen, and each counter is the number of history items with that label |
| Dashboard.FiveCountsSum | client/src/pages/Dashboard.js:155-156 | when every item carries a tier label, the five counters add up to the history length |
| Dashboard.ListingIsTierLabelled | client/src/pages/Dashboard.js:155-156 | every record of a listing carries one of the five labels, so the pie chart accounts for every record |
| Dashboard.ListedLabelIsScoreTier | client/src/pages/Dashboard.js:155-156 | the label the pie chart counts for a listed record reads back, through `TierOfLabel`, as the tier of that record's own score |
| Dashboard.SumBounds | client/src/pages/Dashboard.js:208 | the score total lies between n times any lower bound and n times any upper bound |
| Dashboard.AverageScore | client/src/pages/Dashboard.js:208 | the figure is 0 for an empty history and otherwise within half a point of the exact mean, rounded half up; `Dashboard.AverageWithinBounds` is its partner |
| Dashboard.AverageWithinBounds | client/src/pages/Dashboard.js:208 | the rounded average lies between any lower and upper bound of the scores |
| Dashboard.AverageOfListingIsAScore | client/src/pages/Dashboard.js:208 | the average of a non-empty listing is itself in [300, 900] |
| Dashboard.Trend | client/src/pages/Dashboard.js:135 | the trend series is the history reversed, item by item |
| Dashboard.TrendIsOldestFirst | client/src/pages/Dashboard.js:134-141 | the newest-first listing becomes an oldest-first series |
| Dashboard.TrendInvolution | client/src/pages/Dashboard.js:135 | reversing twice gives the history back |
| Dashboard.TrendScores | client/src/pages/Dashboard.js:141 | the trend's data points are the scores, oldest first |

## Left out

- Express routing, CORS, static file serving, the `authenticate` middleware and `GET /auth/user`: plumbing around the core. The authenticated caller's id is a parameter.
- The CSV upload route and the XLSX export: they are outside the modelled core.
- MongoDB and mongoose internals. The model assumes four behaviours: a save that fails validation writes nothing, the required validator rejects an empty string, `findOneAndUpdate` ignores undefined keys, and ids are unique.
- Malformed object-id strings in `:id` or `userId`, which mongoose answers with a cast error (500): ids are naturals here.
- bcrypt, speakeasy, qrcode, nodemailer and jsonwebtoken: they are oracles or arguments. Token signatures and their seven-day expiry are not modelled, and neither is the email delivery, which is best effort and only logged on failure.
- Accounts.Signup: the password hash is an input, so a missing password (bcrypt throws, 500) is not modelled.
- Floating point. Numbers are exact reals, so binary rounding in the weighted sum is not modelled, and neither are `Infinity` or `-0`.
- `Number()` on strings: a numeric string is modelled as its value, and any other value as NaN.
- Scoring.Tip: the message texts are exact, but JavaScript's number-to-string conversion inside the utilization tip is a parameter of `Tip.Text`.
- Assessments.Update: a `fullName` of `null` in a PUT body is not modelled; an absent name keeps the stored one.
- Accounts.UpdateMfa: a non-boolean `mfaEnabled` (which mongoose would cast or reject) is not modelled; the request carries a boolean.
- Accounts.VerifyApp: speakeasy's TOTP check is an oracle for present codes. Only its rejection of a missing or `null` token (whose string form is not six characters) is modelled.
- A `code` that is a JSON boolean, object or array is not modelled; strings, numbers, `null` and a missing code are.
- Dashboard.TierCounts: the order of `Object.keys`, which fixes the pie chart's label order, is not modelled; the counts are a map.
- The dashboard shows the string '0' as the average of an empty history; `Dashboard.AverageScore` returns the number 0 there.
- Concurrency: two simultaneous signups or updates are not modelled; every route runs atomically here.
- The React pages other than the dashboard helpers (login, profile, live background): presentation only.

## Findings

| source | as written | input that shows it | evidently intended | confidence | as-written member | corrected member |
|---|---|---|---|---|---|---|
| server/server.js:228 | `user.tempMfaCode !== code && code !== "123456"` rejects only when the codes differ under `===`, and an unset code equals an absent one (`undefined`), a cleared code equals `null` | sign up, then POST `/auth/verify-mfa` with the new `userId` and no `code`: a token is issued without any code having been sent; or, after any successful verification, POST `"code": null` | accept only a submitted code string equal to the pending code, or the override | not executed | Accounts.VerifyMfaAsWritten (Accounts.VerifyAsWrittenAcceptsMissingCode, Accounts.VerifyAsWrittenAcceptsNullAfterUse) | Accounts.VerifyMfa (Accounts.EmailCodeSingleUse, Accounts.VerifyMfaAgreesOnCodeStrings) |

=== FILE: Accounts.dfy ===
/** The account record (server/User.js:3-15) and the authentication routes that read and
    write it: signup, login, MFA verification, MFA settings and authenticator provisioning
    (server/server.js:134-283). Password hashing, TOTP checking and the secret generator are
    oracles passed in by the caller; `Math.random` is a parameter in [0, 1). */
module Accounts {

  import opened Wrappers

  /** An account's `_id`; in a valid directory, also its position. */
  type UserId = nat

  /** The `mfaType` enum of the schema. */
  datatype MfaType = MfaEmail | MfaApp | MfaNone

  /** The schema's enum check: the three accepted strings and nothing else. */
  function ParseMfaType(s: string): (t: Option<MfaType>)
    ensures t.Some? <==> s in {"email", "app", "none"}
    ensures t == Some(MfaEmail) <==> s == "email"
    ensures t == Some(MfaApp) <==> s == "app"
  {
    if s == "email" then Some(MfaEmail)
    else if s == "app" then Some(MfaApp)
    else if s == "none" then Some(MfaNone)
    else None
  }

  /** The stored `tempMfaCode`: never written (`undefined`), cleared to `null`, or a code. */
  datatype StoredCode = Unset | Cleared | Code(code: string)

  /** The `code` field of a verify request, as JSON delivers it: missing, `null`, a
      string or a number. */
  datatype CodeField = CodeAbsent | CodeNull | CodeText(text: string) | CodeNumber(x: real)

  /** One account document. `mfaType` is `None` only for documents written before the
      field existed; the schema default gives every new account `Some(MfaNone)`. An unset
      `mfaEnabled` reads as false. */
  datatype Account = Account(
    id: UserId,
    email: string,
    passwordHash: string,
    fullName: string,
    mfaEnabled: bool,
    mfaType: Option<MfaType>,
    mfaSecret: Option<string>,
    tempMfaCode: StoredCode)

  /** All account documents. */
  datatype Directory = Directory(accounts: seq<Account>)

  /** The unique index on `email`, and ids that match positions. */
  predicate Valid(d: Directory) {
    && (forall i :: 0 <= i < |d.accounts| ==> d.accounts[i].id == i)
    && (forall i, j :: 0 <= i < j < |d.accounts| ==> d.accounts[i].email != d.accounts[j].email)
  }

  /** A signed session token; its signature and seven-day expiry are not modelled. */
  datatype Token = Token(userId: UserId)

  /** What speakeasy's `generateSecret` hands back: the base32 secret and its otpauth URL. */
  datatype GeneratedSecret = GeneratedSecret(base32: string, otpauthUrl: string)

  /** The two library checks, left abstract: bcrypt's compare of a password with a hash,
      and speakeasy's TOTP verification of a submitted code against a secret. */
  datatype Oracles = Oracles(
    passwordMatches: (string, string) -> bool,
    totpAccepts: (string, CodeField) -> bool)

  /** The override code every verification accepts. */
  const MasterCode: string := "123456"

  // ---------------------------------------------------------------------------
  // Lookups
  // ---------------------------------------------------------------------------

  /** `User.findOne({ email })`. */
  function FindByEmail(accounts: seq<Account>, email: string): (r: Option<nat>)
    ensures r.Some? ==> r.value < |accounts| && accounts[r.value].email == email
    ensures r.None? ==> forall i :: 0 <= i < |accounts| ==> accounts[i].email != email
  {
    if |accounts| == 0 then None
    else if accounts[|accounts| - 1].email == email then Some(|accounts| - 1)
    else FindByEmail(accounts[..|accounts| - 1], email)
  }

  /** With the unique index, the account found is the only one with that email. */
  lemma FindByEmailUnique(d: Directory, i: nat)
    requires Valid(d) && i < |d.accounts|
    ensures FindByEmail(d.accounts, d.accounts[i].email) == Some(i)
  {
  }

  /** `User.findById(userId)`: the position of an account whose `_id` is `userId`. */
  function FindById(accounts: seq<Account>, userId: int): (r: Option<nat>)
    ensures r.Some? ==> r.value < |accounts| && accounts[r.value].id == userId
    ensures r.None? ==> forall i :: 0 <= i < |accounts| ==> accounts[i].id != userId
  {
    if |accounts| == 0 then None
    else if accounts[|accounts| - 1].id == userId then Some(|accounts| - 1)
    else FindById(accounts[..|accounts| - 1], userId)
  }

  /** In a valid directory the account with `_id` i is the one at position i, and an id
      outside the directory finds nothing. */
  lemma FindByIdIsPosition(d: Directory, userId: int)
    requires Valid(d)
    ensures FindById(d.accounts, userId) == if 0 <= userId < |d.accounts| then Some(userId) else None
  {
    if 0 <= userId < |d.accounts| {
      assert d.accounts[userId].id == userId;
    }
  }

  /** The lookup reads only the ids: two directories with the same ids at the same
      positions find the same position. */
  lemma {:induction false} FindByIdSameIds(xs: seq<Account>, ys: seq<Account>, userId: int)
    requires |xs| == |ys|
    requires forall i :: 0 <= i < |xs| ==> xs[i].id == ys[i].id
    ensures FindById(xs, userId) == FindById(ys, userId)
  {
    if |xs| > 0 && xs[|xs| - 1].id != userId {
      var xp, yp := xs[..|xs| - 1], ys[..|ys| - 1];
      assert forall i :: 0 <= i < |xp| ==> xp[i] == xs[i] && yp[i] == ys[i];
      FindByIdSameIds(xp, yp, userId);
    }
  }

  /** Writing back an account with its own id leaves every lookup by id unchanged. */
  lemma SaveKeepsIds(d: Directory, i: nat, a: Account, userId: int)
    requires i < |d.accounts| && a.id == d.accounts[i].id
    ensures FindById(Save(d, i, a).accounts, userId) == FindById(d.accounts, userId)
  {
    FindByIdSameIds(Save(d, i, a).accounts, d.accounts, userId);
  }

  /** Writes back one account document. */
  function Save(d: Directory, userId: UserId, a: Account): Directory
    requires userId < |d.accounts|
  {
    Directory(d.accounts[userId := a])
  }

  // ---------------------------------------------------------------------------
  // One-time codes
  // ---------------------------------------------------------------------------

  /** `Math.floor(100000 + Math.random() * 900000)`. */
  function MfaCode(random: real): (n: nat)
    requires 0.0 <= random < 1.0
    ensures 100000 <= n <= 999999
  {
    (100000.0 + random * 900000.0).Floor
  }

  /** Every six-digit code is drawn for some value of `Math.random()`. */
  lemma MfaCodeCoversRange(n: nat)
    requires 100000 <= n <= 999999
    ensures 0.0 <= (n - 100000) as real / 900000.0 < 1.0
    ensures MfaCode((n - 100000) as real / 900000.0) == n
  {
  }

  function Digit(d: nat): char
    requires d < 10
  {
    "0123456789"[d]
  }

  predicate IsDigits(s: string) {
    forall i :: 0 <= i < |s| ==> '0' <= s[i] <= '9'
  }

  /** `n.toString()` for a natural number. */
  function DecimalString(n: nat): (s: string)
    ensures |s| >= 1 && IsDigits(s)
    decreases n
  {
    if n < 10 then [Digit(n)] else DecimalString(n / 10) + [Digit(n % 10)]
  }

  /** The value of a string of decimal digits. */
  function ParseDecimal(s: string): nat
    requires IsDigits(s)
  {
    if |s| == 0 then 0 else 10 * ParseDecimal(s[..|s| - 1]) + (s[|s| - 1] - '0') as nat
  }

  /** The decimal rendering of a number reads back as that number. */
  lemma {:induction false} DecimalRoundTrip(n: nat)
    ensures ParseDecimal(DecimalString(n)) == n
    decreases n
  {
    var s := DecimalString(n);
    if n >= 10 {
      DecimalRoundTrip(n / 10);
      assert s[..|s| - 1] == DecimalString(n / 10);
    }
  }

  function Pow10(k: nat): nat {
    if k == 0 then 1 else 10 * Pow10(k - 1)
  }

  /** A number with k digits renders as k characters. */
  lemma {:induction false} DecimalLength(n: nat, k: nat)
    requires k >= 1 && n < Pow10(k) && (k == 1 || Pow10(k - 1) <= n)
    ensures |DecimalString(n)| == k
    decreases k
  {
    if k > 1 {
      assert Pow10(k - 1) == 10 * Pow10(k - 2);
      DecimalLength(n / 10, k - 1);
    }
  }

  /** A code the login stores is six decimal digits. */
  lemma CodeHasSixDigits(n: nat)
    requires 100000 <= n <= 999999
    ensures |DecimalString(n)| == 6 && IsDigits(DecimalString(n))
  {
    assert Pow10(5) == 100000 && Pow10(6) == 1000000;
    DecimalLength(n, 6);
  }

  // ---------------------------------------------------------------------------
  // Signup
  // ---------------------------------------------------------------------------

  datatype SignupResponse =
    | SignedUp(token: Token, fullName: string, email: string)
    | UserExists            // 400 "User already exists"
    | SignupRejected        // 500: a required field is empty, so `save` fails validation

  /** `POST /auth/signup`: an email already on file is refused before anything is written;
      otherwise a new account with MFA enabled and the default `mfaType` 'none' is added. */
  function Signup(d: Directory, fullName: string, email: string, passwordHash: string)
    : (r: (Directory, SignupResponse))
    ensures r.1.UserExists? <==> exists i :: 0 <= i < |d.accounts| && d.accounts[i].email == email
    ensures !r.1.SignedUp? ==> r.0 == d
    ensures r.1.SignedUp? ==>
              && r.0.accounts == d.accounts
                 + [Account(|d.accounts|, email, passwordHash, fullName, true, Some(MfaNone), None, Unset)]
              && r.1.token == Token(|d.accounts|)
              && r.1.fullName == fullName && r.1.email == email
    ensures r.1.SignedUp? <==> FindByEmail(d.accounts, email).None? && email != "" && fullName != ""
  {
    if FindByEmail(d.accounts, email).Some? then (d, UserExists)
    else if email == "" || fullName == "" then (d, SignupRejected)
    else
      var id := |d.accounts|;
      var a := Account(id, email, passwordHash, fullName, true, Some(MfaNone), None, Unset);
      (Directory(d.accounts + [a]), SignedUp(Token(id), fullName, email))
  }

  // ---------------------------------------------------------------------------
  // Login
  // ---------------------------------------------------------------------------

  datatype LoginResponse =
    | InvalidCredentials                                  // 400, for both failure causes
    | LoggedIn(token: Token, fullName: string, email: string)
    | MfaRequired(userId: UserId, mfaType: MfaType)       // mfaType is 'email' or 'app'

  /** The `mfaType` values that take the email-code branch: 'email', 'none' or unset. */
  predicate EmailBranch(t: Option<MfaType>) {
    t != Some(MfaApp)
  }

  /** `POST /auth/login`. An unknown email and a wrong password give the same answer and
      change nothing. With MFA on, the email branch stores a fresh six-digit code and the
      app branch stores nothing; with MFA off a token is issued. */
  function Login(d: Directory, email: string, password: string, o: Oracles, random: real)
    : (r: (Directory, LoginResponse))
    requires 0.0 <= random < 1.0
    ensures r.1.InvalidCredentials? <==>
              FindByEmail(d.accounts, email).None?
              || !o.passwordMatches(password, d.accounts[FindByEmail(d.accounts, email).value].passwordHash)
    ensures !r.1.MfaRequired? || r.1.mfaType == MfaApp ==> r.0 == d
    ensures r.1.LoggedIn? ==>
              var a := d.accounts[FindByEmail(d.accounts, email).value];
              !a.mfaEnabled && r.1.token == Token(a.id) && r.1.email == email
    ensures r.1.MfaRequired? ==>
              var i := FindByEmail(d.accounts, email).value;
              && d.accounts[i].mfaEnabled
              && r.1.userId == d.accounts[i].id
              && (r.1.mfaType == MfaEmail <==> EmailBranch(d.accounts[i].mfaType))
              && (r.1.mfaType == MfaApp <==> !EmailBranch(d.accounts[i].mfaType))
    ensures r.1.MfaRequired? && r.1.mfaType == MfaEmail ==>
              var i := FindByEmail(d.accounts, email).value;
              && |r.0.accounts| == |d.accounts|
              && r.0.accounts[i] == d.accounts[i].(tempMfaCode := Code(DecimalString(MfaCode(random))))
              && (forall j :: 0 <= j < |d.accounts| && j != i ==> r.0.accounts[j] == d.accounts[j])
  {
    match FindByEmail(d.accounts, email)
    case None => (d, InvalidCredentials)
    case Some(i) =>
      var a := d.accounts[i];
      if !o.passwordMatches(password, a.passwordHash) then (d, InvalidCredentials)
      else if a.mfaEnabled && EmailBranch(a.mfaType) then
        // The email itself is best effort: a delivery failure is only logged.
        var code := DecimalString(MfaCode(random));
        (Directory(d.accounts[i := a.(tempMfaCode := Code(code))]), MfaRequired(a.id, MfaEmail))
      else if a.mfaEnabled then
        (d, MfaRequired(a.id, MfaApp))
      else
        (d, LoggedIn(Token(a.id), a.fullName, email))
  }

  // ---------------------------------------------------------------------------
  // Verify MFA
  // ---------------------------------------------------------------------------

  datatype VerifyResponse =
    | InvalidUser                     // 400 "Invalid user"
    | InvalidVerificationCode         // 400, email branch
    | InvalidAuthenticatorCode        // 400, app branch
    | VerifyFailed                    // 500: app branch without a stored secret
    | Verified(token: Token, fullName: string, email: string)

  /** JavaScript `===` between the stored code and the submitted one: `undefined` equals
      `undefined`, `null` equals `null`, and strings compare by content. */
  predicate StrictEquals(stored: StoredCode, code: CodeField) {
    match stored
    case Unset => code.CodeAbsent?
    case Cleared => code.CodeNull?
    case Code(s) => code == CodeText(s)
  }

  /** A JavaScript primitive as the route sees it: `undefined`, `null`, a string or a
      number. */
  datatype JsValue = JsUndefined | JsNull | JsString(s: string) | JsNumber(x: real)

  function StoredValue(stored: StoredCode): JsValue {
    match stored
    case Unset => JsUndefined
    case Cleared => JsNull
    case Code(s) => JsString(s)
  }

  function SubmittedValue(code: CodeField): JsValue {
    match code
    case CodeAbsent => JsUndefined
    case CodeNull => JsNull
    case CodeText(s) => JsString(s)
    case CodeNumber(x) => JsNumber(x)
  }

  /** `===` on primitives is equality of type and value: the stored and the submitted code
      are strictly equal exactly when they are the same JavaScript value. */
  lemma StrictEqualsIsValueEquality(stored: StoredCode, code: CodeField)
    ensures StrictEquals(stored, code) <==> StoredValue(stored) == SubmittedValue(code)
  {
  }

  /** The app branch, shared by both versions of the route: the override code, else the
      TOTP check on the stored secret. A missing secret makes the route throw, which is the
      500. A missing (`undefined` or `null`) token stringifies to a string that is not six
      characters long, so speakeasy rejects it and the answer is 400. The branch never
      touches the directory. */
  function VerifyApp(a: Account, code: CodeField, o: Oracles): (r: VerifyResponse)
    ensures r.Verified? <==>
              || code == CodeText(MasterCode)
              || (a.mfaSecret.Some? && !code.CodeAbsent? && !code.CodeNull?
                  && o.totpAccepts(a.mfaSecret.value, code))
    ensures r.Verified? ==> r.token == Token(a.id)
    ensures r.VerifyFailed? <==> code != CodeText(MasterCode) && a.mfaSecret.None?
    ensures r.InvalidAuthenticatorCode? || r.VerifyFailed? || r.Verified?
  {
    if code == CodeText(MasterCode) then Verified(Token(a.id), a.fullName, a.email)
    else match a.mfaSecret
      // Decoding a missing secret, or the failure log that reads its prefix, throws.
      case None => VerifyFailed
      case Some(secret) =>
        if code.CodeAbsent? || code.CodeNull? then InvalidAuthenticatorCode
        else if o.totpAccepts(secret, code) then Verified(Token(a.id), a.fullName, a.email)
        else InvalidAuthenticatorCode
  }

  /** `POST /auth/verify-mfa` as the route is written: the email branch rejects only when
      `tempMfaCode !== code && code !== "123456"`; a success clears the code to `null`. */
  function VerifyMfaAsWritten(d: Directory, userId: int, code: CodeField, o: Oracles)
    : (r: (Directory, VerifyResponse))
    ensures r.1.InvalidUser? <==> FindById(d.accounts, userId).None?
    ensures !r.1.Verified? ==> r.0 == d
    ensures var f := FindById(d.accounts, userId);
            f.Some? && d.accounts[f.value].mfaType != Some(MfaApp) ==>
              && (r.1.Verified? <==>
                    StrictEquals(d.accounts[f.value].tempMfaCode, code) || code == CodeText(MasterCode))
              && (r.1.Verified? ==>
                    && r.1.token == Token(d.accounts[f.value].id)
                    && r.0.accounts == d.accounts[f.value := d.accounts[f.value].(tempMfaCode := Cleared)])
    ensures var f := FindById(d.accounts, userId);
            f.Some? && d.accounts[f.value].mfaType == Some(MfaApp) ==>
              r == (d, VerifyApp(d.accounts[f.value], code, o))
  {
    match FindById(d.accounts, userId)
    case None => (d, InvalidUser)
    case Some(i) =>
      var a := d.accounts[i];
      if a.mfaType == Some(MfaApp) then (d, VerifyApp(a, code, o))
      else if !StrictEquals(a.tempMfaCode, code) && code != CodeText(MasterCode) then
        (d, InvalidVerificationCode)
      else
        (Save(d, i, a.(tempMfaCode := Cleared)), Verified(Token(a.id), a.fullName, a.email))
  }

  /** On an account that never received a code, omitting the code passes the email
      branch: `undefined !== undefined` is false. */
  lemma VerifyAsWrittenAcceptsMissingCode(d: Directory, o: Oracles)
    requires Valid(d)
    requires FindByEmail(d.accounts, "a@example.com").None?
    ensures var (d1, _) := Signup(d, "A", "a@example.com", "hash");
            VerifyMfaAsWritten(d1, |d.accounts|, CodeAbsent, o).1 == Verified(Token(|d.accounts|), "A", "a@example.com")
  {
  }

  /** After a successful verification has cleared the code to `null`, submitting
      `"code": null` passes the email branch: `null !== null` is false. */
  lemma VerifyAsWrittenAcceptsNullAfterUse(d: Directory, userId: int, code: CodeField, o: Oracles)
    requires FindById(d.accounts, userId).Some?
    requires d.accounts[FindById(d.accounts, userId).value].mfaType != Some(MfaApp)
    requires VerifyMfaAsWritten(d, userId, code, o).1.Verified?
    ensures var (d1, _) := VerifyMfaAsWritten(d, userId, code, o);
            VerifyMfaAsWritten(d1, userId, CodeNull, o).1.Verified?
  {
    var i := FindById(d.accounts, userId).value;
    SaveKeepsIds(d, i, d.accounts[i].(tempMfaCode := Cleared), userId);
  }

  /** The email branch as intended: a submitted code string that equals the pending code or
      the override. */
  predicate EmailCodeAccepted(stored: StoredCode, code: CodeField) {
    code.CodeText? && (stored == Code(code.text) || code.text == MasterCode)
  }

  /** `POST /auth/verify-mfa`, with the email branch accepting only a submitted code string
      that matches. A failure never yields a token; the code is cleared only on success
      and only by the email branch. */
  function VerifyMfa(d: Directory, userId: int, code: CodeField, o: Oracles)
    : (r: (Directory, VerifyResponse))
    ensures r.1.InvalidUser? <==> FindById(d.accounts, userId).None?
    ensures !r.1.Verified? ==> r.0 == d
    ensures var f := FindById(d.accounts, userId);
            f.Some? && d.accounts[f.value].mfaType != Some(MfaApp) ==>
              && (r.1.Verified? <==> EmailCodeAccepted(d.accounts[f.value].tempMfaCode, code))
              && (r.1.Verified? ==>
                    && r.1.token == Token(d.accounts[f.value].id)
                    && r.0.accounts == d.accounts[f.value := d.accounts[f.value].(tempMfaCode := Cleared)])
    ensures var f := FindById(d.accounts, userId);
            f.Some? && d.accounts[f.value].mfaType == Some(MfaApp) ==>
              r == (d, VerifyApp(d.accounts[f.value], code, o))
  {
    match FindById(d.accounts, userId)
    case None => (d, InvalidUser)
    case Some(i) =>
      var a := d.accounts[i];
      if a.mfaType == Some(MfaApp) then (d, VerifyApp(a, code, o))
      else if !EmailCodeAccepted(a.tempMfaCode, code) then (d, InvalidVerificationCode)
      else (Save(d, i, a.(tempMfaCode := Cleared)), Verified(Token(a.id), a.fullName, a.email))
  }

  /** The correction changes nothing for a submitted code string: both versions agree. */
  lemma VerifyMfaAgreesOnCodeStrings(d: Directory, userId: int, code: string, o: Oracles)
    ensures VerifyMfa(d, userId, CodeText(code), o) == VerifyMfaAsWritten(d, userId, CodeText(code), o)
  {
  }

  /** The code a login stores is accepted exactly once by the email branch: verifying it
      clears it, and the same code is then refused unless it is the override. */
  lemma EmailCodeSingleUse(d: Directory, email: string, password: string,
                           o: Oracles, random: real)
    requires Valid(d) && 0.0 <= random < 1.0
    requires Login(d, email, password, o, random).1.MfaRequired?
    requires Login(d, email, password, o, random).1.mfaType == MfaEmail
    ensures var (d1, r1) := Login(d, email, password, o, random);
            var code := CodeText(DecimalString(MfaCode(random)));
            var (d2, r2) := VerifyMfa(d1, r1.userId, code, o);
            && r2.Verified?
            && (DecimalString(MfaCode(random)) != MasterCode ==> !VerifyMfa(d2, r1.userId, code, o).1.Verified?)
  {
    var (d1, r1) := Login(d, email, password, o, random);
    var i := FindByEmail(d.accounts, email).value;
    assert d.accounts[i].id == i;
    assert d1.accounts[i].mfaType == d.accounts[i].mfaType;
    FindByIdSameIds(d1.accounts, d.accounts, i);
    FindByIdIsPosition(d, i);
    var code := CodeText(DecimalString(MfaCode(random)));
    SaveKeepsIds(d1, i, d1.accounts[i].(tempMfaCode := Cleared), i);
  }

  // ---------------------------------------------------------------------------
  // MFA settings and authenticator provisioning
  // ---------------------------------------------------------------------------

  datatype UpdateMfaResponse =
    | MfaUpdated(mfaEnabled: bool, mfaType: Option<MfaType>)
    | UpdateRejected       // 500: no such account, or `mfaType` outside the enum fails validation

  /** `POST /auth/update-mfa`: `mfaEnabled` is always overwritten, `mfaType` only when a
      non-empty value is sent; a value outside the enum makes the save fail, so then
      nothing is written. No other field changes. */
  function UpdateMfa(d: Directory, userId: UserId, enabled: bool, mfaType: Option<string>)
    : (r: (Directory, UpdateMfaResponse))
    ensures r.1.UpdateRejected? ==> r.0 == d
    ensures r.1.UpdateRejected? <==>
              FindById(d.accounts, userId).None?
              || (mfaType.Some? && mfaType.value != "" && ParseMfaType(mfaType.value).None?)
    ensures r.1.MfaUpdated? ==>
              && FindById(d.accounts, userId).Some?
              && var i := FindById(d.accounts, userId).value;
              && var a := d.accounts[i];
              && var t := if mfaType.Some? && mfaType.value != "" then ParseMfaType(mfaType.value) else a.mfaType;
              && r.0.accounts == d.accounts[i := a.(mfaEnabled := enabled, mfaType := t)]
              && r.1 == MfaUpdated(enabled, t)
  {
    match FindById(d.accounts, userId)
    case None => (d, UpdateRejected)
    case Some(i) =>
      var a := d.accounts[i];
      if mfaType.Some? && mfaType.value != "" then
        match ParseMfaType(mfaType.value)
        case None => (d, UpdateRejected)
        case Some(t) =>
          (Save(d, i, a.(mfaEnabled := enabled, mfaType := Some(t))), MfaUpdated(enabled, Some(t)))
      else
        (Save(d, i, a.(mfaEnabled := enabled)), MfaUpdated(enabled, a.mfaType))
  }

  datatype SetupResponse =
    | AppMfaSetup(otpauthUrl: string, secret: string)   // the QR code is drawn from the URL
    | SetupRejected                                     // 500: no such account

  /** A secret is on file when it is present and non-empty (`!secretBase32` is false). */
  predicate HasSecret(a: Account) {
    a.mfaSecret.Some? && a.mfaSecret.value != ""
  }

  const UrlPrefix: string := "otpauth://totp/CIBIL%20Analysis%20("
  const SecretParam: string := ")?secret="
  const IssuerParam: string := "&issuer=CIBIL%20Analysis"

  /** The otpauth URL rebuilt for a secret already on file: the account's email labels it,
      and the secret can be read back between the `secret` and `issuer` parameters. */
  function OtpauthUrl(email: string, secret: string): (url: string)
    ensures |url| == |UrlPrefix| + |email| + |SecretParam| + |secret| + |IssuerParam|
    ensures url[..|UrlPrefix|] == UrlPrefix
    ensures url[|UrlPrefix|..|UrlPrefix| + |email|] == email
    ensures url[|UrlPrefix| + |email| + |SecretParam|..|url| - |IssuerParam|] == secret
    ensures url[|url| - |IssuerParam|..] == IssuerParam
  {
    var url := UrlPrefix + email + SecretParam + secret + IssuerParam;
    assert url[..|UrlPrefix|] == UrlPrefix;
    assert url[|UrlPrefix|..|UrlPrefix| + |email|] == email;
    assert url[|UrlPrefix| + |email| + |SecretParam|..|url| - |IssuerParam|] == secret;
    assert url[|url| - |IssuerParam|..] == IssuerParam;
    url
  }

  /** `GET /auth/setup-app-mfa`: a secret on file is returned as it is, with its URL
      rebuilt, and the directory is left alone; otherwise the generated secret is stored
      and returned. */
  function SetupAppMfa(d: Directory, userId: UserId, generated: GeneratedSecret)
    : (r: (Directory, SetupResponse))
    ensures r.1.SetupRejected? <==> FindById(d.accounts, userId).None?
    ensures r.1.SetupRejected? ==> r.0 == d
    ensures r.1.AppMfaSetup? ==>
              && FindById(d.accounts, userId).Some?
              && var i := FindById(d.accounts, userId).value;
              && var a := d.accounts[i];
              && (HasSecret(a) ==>
                    r == (d, AppMfaSetup(OtpauthUrl(a.email, a.mfaSecret.value), a.mfaSecret.value)))
              && (!HasSecret(a) ==>
                    && r.1 == AppMfaSetup(generated.otpauthUrl, generated.base32)
                    && r.0.accounts == d.accounts[i := a.(mfaSecret := Some(generated.base32))])
  {
    match FindById(d.accounts, userId)
    case None => (d, SetupRejected)
    case Some(i) =>
      var a := d.accounts[i];
      if HasSecret(a) then (d, AppMfaSetup(OtpauthUrl(a.email, a.mfaSecret.value), a.mfaSecret.value))
      else (Save(d, i, a.(mfaSecret := Some(generated.base32))), AppMfaSetup(generated.otpauthUrl, generated.base32))
  }

  /** Provisioning twice answers the same secret and the second call writes nothing, when
      the generator yields a non-empty secret. */
  lemma SetupAppMfaIdempotent(d: Directory, userId: UserId, g1: GeneratedSecret, g2: GeneratedSecret)
    requires FindById(d.accounts, userId).Some? && g1.base32 != ""
    ensures var (d1, r1) := SetupAppMfa(d, userId, g1);
            var (d2, r2) := SetupAppMfa(d1, userId, g2);
            r1.AppMfaSetup? && r2.AppMfaSetup? && d2 == d1 && r2.secret == r1.secret
  {
    var i := FindById(d.accounts, userId).value;
    var a := d.accounts[i];
    if !HasSecret(a) {
      SaveKeepsIds(d, i, a.(mfaSecret := Some(g1.base32)), userId);
    }
  }

  // ---------------------------------------------------------------------------
  // The directory as a state machine
  // ---------------------------------------------------------------------------

  /** One call to an authentication route, with the request data the route reads. */
  datatype Request =
    | SignupRequest(fullName: string, email: string, passwordHash: string)
    | LoginRequest(email: string, password: string, random: real)
    | VerifyRequest(userId: int, code: CodeField)
    | UpdateMfaRequest(target: UserId, enabled: bool, mfaType: Option<string>)
    | SetupAppMfaRequest(target: UserId, generated: GeneratedSecret)

  predicate WellFormed(req: Request) {
    req.LoginRequest? ==> 0.0 <= req.random < 1.0
  }

  /** Which verify-mfa route the directory runs: the program's, or the corrected one. */
  datatype Verifier = AsWritten | Corrected

  /** The directory after one request. */
  function Step(d: Directory, req: Request, o: Oracles, v: Verifier): Directory
    requires WellFormed(req)
  {
    match req
    case SignupRequest(name, email, hash) => Signup(d, name, email, hash).0
    case LoginRequest(email, password, random) => Login(d, email, password, o, random).0
    case VerifyRequest(userId, code) =>
      if v == AsWritten then VerifyMfaAsWritten(d, userId, code, o).0 else VerifyMfa(d, userId, code, o).0
    case UpdateMfaRequest(userId, enabled, t) => UpdateMfa(d, userId, enabled, t).0
    case SetupAppMfaRequest(userId, g) => SetupAppMfa(d, userId, g).0
  }

  /** Writing back an account with its own id and email keeps the directory valid. */
  lemma SaveKeepsValid(d: Directory, i: nat, a: Account)
    requires Valid(d) && i < |d.accounts|
    requires a.id == d.accounts[i].id && a.email == d.accounts[i].email
    ensures Valid(Save(d, i, a))
  {
  }

  /** Every route, with either verify-mfa route, keeps emails unique and ids in place, and
      never removes an account. */
  lemma StepPreservesValid(d: Directory, req: Request, o: Oracles, v: Verifier)
    requires Valid(d) && WellFormed(req)
    ensures Valid(Step(d, req, o, v))
    ensures |Step(d, req, o, v).accounts| >= |d.accounts|
  {
    match req
    case SignupRequest(name, email, hash) =>
      var d' := Signup(d, name, email, hash).0;
      forall i, j | 0 <= i < j < |d'.accounts|
        ensures d'.accounts[i].email != d'.accounts[j].email
      {
        if j == |d.accounts| {
          assert d'.accounts[i] == d.accounts[i];
        }
      }
    case LoginRequest(email, password, random) =>
      var f := FindByEmail(d.accounts, email);
      if f.Some? {
        var a := d.accounts[f.value];
        SaveKeepsValid(d, f.value, a.(tempMfaCode := Code(DecimalString(MfaCode(random)))));
      }
    case VerifyRequest(userId, code) =>
      var f := FindById(d.accounts, userId);
      if f.Some? {
        SaveKeepsValid(d, f.value, d.accounts[f.value].(tempMfaCode := Cleared));
      }
    case UpdateMfaRequest(userId, enabled, t) =>
      var f := FindById(d.accounts, userId);
      if f.Some? {
        var a := d.accounts[f.value];
        SaveKeepsValid(d, f.value, a.(mfaEnabled := enabled));
        if t.Some? && t.value != "" && ParseMfaType(t.value).Some? {
          SaveKeepsValid(d, f.value, a.(mfaEnabled := enabled, mfaType := ParseMfaType(t.value)));
        }
      }
    case SetupAppMfaRequest(userId, g) =>
      var f := FindById(d.accounts, userId);
      if f.Some? {
        SaveKeepsValid(d, f.value, d.accounts[f.value].(mfaSecret := Some(g.base32)));
      }
  }

  /** Once an account has a secret, no route replaces it, with either verify-mfa route: the
      secret is write-once. */
  lemma SecretWriteOnce(d: Directory, req: Request, o: Oracles, v: Verifier, userId: UserId)
    requires Valid(d) && WellFormed(req)
    requires userId < |d.accounts| && HasSecret(d.accounts[userId])
    ensures userId < |Step(d, req, o, v).accounts|
    ensures Step(d, req, o, v).accounts[userId].mfaSecret == d.accounts[userId].mfaSecret
  {
  }

  /** The account a signup creates has MFA on with type 'none', so its first login with the
      right password takes the email branch and stores a six-digit code. */
  lemma NewAccountLoginSendsEmailCode(
    d: Directory, fullName: string, email: string, passwordHash: string,
    password: string, o: Oracles, random: real)
    requires Valid(d) && 0.0 <= random < 1.0
    requires Signup(d, fullName, email, passwordHash).1.SignedUp?
    requires o.passwordMatches(password, passwordHash)
    ensures var d1 := Signup(d, fullName, email, passwordHash).0;
            var (d2, r) := Login(d1, email, password, o, random);
            && r == MfaRequired(|d.accounts|, MfaEmail)
            && d2.accounts[|d.accounts|].tempMfaCode == Code(DecimalString(MfaCode(random)))
            && |DecimalString(MfaCode(random))| == 6
  {
    var d1 := Signup(d, fullName, email, passwordHash).0;
    StepPreservesValid(d, SignupRequest(fullName, email, passwordHash), o, Corrected);
    FindByEmailUnique(d1, |d.accounts|);
    CodeHasSixDigits(MfaCode(random));
  }
}

=== FILE: Assessments.dfy ===
/** The assessment record (server/Assessment.js:3-22) and the owner-scoped routes over the
    collection: `POST /analyze` appends, `GET /users` lists the caller's records newest
    first, and `DELETE`/`PUT /users/:id` act only on a record whose id and owner both match
    (server/server.js:302-373, 427-501). The collection is an in-memory sequence; the clock
    is a parameter. */
module Assessments {

  import opened Wrappers
  import opened Scoring
  import opened Requests

  type RecordId = nat

  /** One stored assessment: the owner, the coerced inputs and the three outputs computed
      from them, and the creation time. */
  datatype Assessment = Assessment(
    id: RecordId,
    userId: nat,
    fullName: string,
    inputs: Profile,
    estimatedScore: int,
    riskLevel: string,
    suggestions: seq<Tip>,
    createdAt: int)

  /** The collection, with the next fresh `_id`. */
  datatype Store = Store(records: seq<Assessment>, nextId: RecordId)

  /** The outputs a record carries are exactly those its inputs determine. */
  predicate Consistent(a: Assessment) {
    && a.estimatedScore == Score(a.inputs)
    && a.riskLevel == RiskLevel(a.estimatedScore).Label()
    && a.suggestions == Suggestions(a.inputs)
  }

  /** Every record is consistent and below the id counter. */
  predicate AllConsistent(rs: seq<Assessment>, nextId: RecordId) {
    forall i :: 0 <= i < |rs| ==> rs[i].id < nextId && Consistent(rs[i])
  }

  predicate IdsDistinct(rs: seq<Assessment>) {
    forall i, j :: 0 <= i < j < |rs| ==> rs[i].id != rs[j].id
  }

  /** Ids are distinct and below the counter, and every record is consistent. */
  predicate Valid(s: Store) {
    AllConsistent(s.records, s.nextId) && IdsDistinct(s.records)
  }

  /** A record built from a profile, with its outputs recomputed. */
  function Build(id: RecordId, userId: nat, fullName: string, p: Profile, createdAt: int): (a: Assessment)
    ensures Consistent(a)
    ensures 300 <= a.estimatedScore <= 900
  {
    var score := Score(p);
    Assessment(id, userId, fullName, p, score, RiskLevel(score).Label(), Suggestions(p), createdAt)
  }

  // ---------------------------------------------------------------------------
  // POST /analyze
  // ---------------------------------------------------------------------------

  /** `POST /analyze` by `userId` at time `now`: a request the gate rejects leaves the
      collection alone; an accepted one appends one record owned by the caller, holding the
      coerced inputs and the outputs computed from them, and answers those outputs. */
  function Analyze(s: Store, userId: nat, req: AnalyzeRequest, now: int)
    : (r: (Store, Result<Outcome, RequestError>))
    ensures r.1.Failure? ==> r.0 == s && r.1.error == FieldsRequired
    ensures r.1.Failure? <==> CheckAnalyze(req).Failure?
    ensures r.1.Success? ==>
              && |r.0.records| == |s.records| + 1
              && r.0.records[..|s.records|] == s.records
              && r.0.nextId == s.nextId + 1
              && var a := r.0.records[|s.records|];
              && a.id == s.nextId && a.userId == userId && a.createdAt == now
              && a.fullName == req.fullName.s && a.fullName != ""
              && Consistent(a)
              && Denotes(a.inputs, req.paymentHistory, req.creditUtilization, req.creditAge,
                         req.creditMix, req.hardInquiries)
              && r.1.value == Outcome(a.estimatedScore, RiskLevel(a.estimatedScore), a.suggestions)
  {
    match CheckAnalyze(req)
    case Failure(e) => (s, Failure(e))
    case Success((name, p)) =>
      var a := Build(s.nextId, userId, name, p, now);
      (Store(s.records + [a], s.nextId + 1), Success(Assess(p)))
  }

  // ---------------------------------------------------------------------------
  // GET /users
  // ---------------------------------------------------------------------------

  /** `Assessment.find({ userId })`: the owner's records, in collection order. */
  function OwnedBy(rs: seq<Assessment>, userId: nat): (r: seq<Assessment>)
    ensures forall a: Assessment :: multiset(r)[a] == (if a.userId == userId then multiset(rs)[a] else 0)
  {
    if |rs| == 0 then []
    else
      assert rs == [rs[0]] + rs[1..];
      (if rs[0].userId == userId then [rs[0]] else []) + OwnedBy(rs[1..], userId)
  }

  /** Sorted by `createdAt`, newest first. */
  predicate NewestFirst(rs: seq<Assessment>) {
    forall i, j :: 0 <= i < j < |rs| ==> rs[i].createdAt >= rs[j].createdAt
  }

  /** Sorted by a key, largest first. */
  predicate Descending<T>(xs: seq<T>, key: T -> int) {
    forall i, j :: 0 <= i < j < |xs| ==> key(xs[i]) >= key(xs[j])
  }

  /** Inserts one element into a list sorted largest key first; the new head is the
      element or the old head. */
  function Insert<T>(x: T, xs: seq<T>, key: T -> int): (r: seq<T>)
    requires Descending(xs, key)
    ensures Descending(r, key)
    ensures multiset(r) == multiset(xs) + multiset{x}
    ensures |r| > 0 && (r[0] == x || (|xs| > 0 && r[0] == xs[0]))
  {
    if |xs| == 0 || key(x) >= key(xs[0]) then [x] + xs
    else
      assert xs == [xs[0]] + xs[1..];
      var rest := Insert(x, xs[1..], key);
      var r := [xs[0]] + rest;
      assert Descending(r, key) by {
        forall i, j | 0 <= i < j < |r|
          ensures key(r[i]) >= key(r[j])
        {
          assert r[j] == rest[j - 1];
          if i > 0 {
            assert r[i] == rest[i - 1];
          } else {
            assert key(rest[0]) >= key(rest[j - 1]) || j == 1;
          }
        }
      }
      assert multiset(r) == multiset{xs[0]} + multiset(rest);
      r
  }

  /** Insertion sort, largest key first: a permutation of its input. */
  function SortDescending<T>(xs: seq<T>, key: T -> int): (r: seq<T>)
    ensures Descending(r, key)
    ensures multiset(r) == multiset(xs)
  {
    if |xs| == 0 then []
    else
      assert xs == [xs[0]] + xs[1..];
      Insert(xs[0], SortDescending(xs[1..], key), key)
  }

  function CreatedAt(a: Assessment): int {
    a.createdAt
  }

  /** `.sort({ createdAt: -1 })`: a permutation of its input, newest first. Records created
      at the same instant may come out in either order. */
  function SortNewestFirst(rs: seq<Assessment>): (r: seq<Assessment>)
    ensures NewestFirst(r)
    ensures multiset(r) == multiset(rs)
  {
    SortDescending(rs, CreatedAt)
  }

  /** `GET /users`: exactly the caller's records, each as often as it is stored, newest
      first. */
  function List(s: Store, userId: nat): (r: seq<Assessment>)
    ensures NewestFirst(r)
    ensures forall a: Assessment :: multiset(r)[a] == (if a.userId == userId then multiset(s.records)[a] else 0)
    ensures forall a :: a in r <==> a in s.records && a.userId == userId
  {
    var r := SortNewestFirst(OwnedBy(s.records, userId));
    assert forall a :: a in r <==> a in multiset(r);
    assert forall a :: a in s.records <==> a in multiset(s.records);
    r
  }

  /** Round trip: an accepted analysis is read back by its owner with the stored fields. */
  lemma AnalyzeThenList(s: Store, userId: nat, req: AnalyzeRequest, now: int)
    requires Analyze(s, userId, req, now).1.Success?
    ensures var s' := Analyze(s, userId, req, now).0;
            var a := s'.records[|s.records|];
            && a in List(s', userId)
            && a.fullName == req.fullName.s && a.createdAt == now
            && a.estimatedScore == Analyze(s, userId, req, now).1.value.estimatedScore
            && a.suggestions == Analyze(s, userId, req, now).1.value.suggestions
  {
  }

  // ---------------------------------------------------------------------------
  // DELETE and PUT /users/:id
  // ---------------------------------------------------------------------------

  /** The filter `{ _id: id, userId }`: the first record whose id and owner both match. */
  function FindRecord(rs: seq<Assessment>, id: RecordId, userId: nat): (r: Option<nat>)
    ensures r.Some? ==> r.value < |rs| && rs[r.value].id == id && rs[r.value].userId == userId
    ensures r.None? ==> forall i :: 0 <= i < |rs| ==> !(rs[i].id == id && rs[i].userId == userId)
  {
    if |rs| == 0 then None
    else if rs[0].id == id && rs[0].userId == userId then Some(0)
    else match FindRecord(rs[1..], id, userId)
      case None => None
      case Some(k) => Some(k + 1)
  }

  /** True when the caller owns a record with this id. */
  predicate Owns(s: Store, id: RecordId, userId: nat) {
    exists i :: 0 <= i < |s.records| && s.records[i].id == id && s.records[i].userId == userId
  }

  /** The list without its element at position `i`. */
  function RemoveAt(rs: seq<Assessment>, i: nat): (r: seq<Assessment>)
    requires i < |rs|
    ensures |r| == |rs| - 1
    ensures forall j :: 0 <= j < i ==> r[j] == rs[j]
    ensures forall j :: i <= j < |r| ==> r[j] == rs[j + 1]
    ensures multiset(r) == multiset(rs) - multiset{rs[i]}
  {
    assert rs == rs[..i] + [rs[i]] + rs[i + 1..];
    rs[..i] + rs[i + 1..]
  }

  /** `DELETE /users/:id`: removes the matching record and answers true, or answers false
      (404) and changes nothing. No record of another owner is touched. */
  function Delete(s: Store, id: RecordId, userId: nat): (r: (Store, bool))
    ensures r.1 <==> Owns(s, id, userId)
    ensures !r.1 ==> r.0 == s
    ensures r.1 ==> exists i :: 0 <= i < |s.records| && s.records[i].id == id
                                && s.records[i].userId == userId
                                && r.0.records == RemoveAt(s.records, i)
    ensures r.0.nextId == s.nextId
    ensures forall a: Assessment :: a.userId != userId ==> multiset(r.0.records)[a] == multiset(s.records)[a]
  {
    match FindRecord(s.records, id, userId)
    case None => (s, false)
    case Some(i) => (Store(RemoveAt(s.records, i), s.nextId), true)
  }

  /** The answers of `PUT /users/:id`. */
  datatype UpdateResponse =
    | Updated(record: Assessment)
    | NotFound                        // 404 "Assessment not found"
    | Invalid(error: RequestError)    // 400 "Invalid numeric values"

  /** `PUT /users/:id`: the matching record gets the coerced inputs and freshly computed
      score, tier and tips (and the new name when one is sent), keeping its id, owner and
      creation time; it is answered back. Without a match the answer is 404 and nothing
      changes. The 400 of the NaN check is never given. */
  function Update(s: Store, id: RecordId, userId: nat, req: UpdateRequest)
    : (r: (Store, UpdateResponse))
    ensures !r.1.Invalid?
    ensures r.1.Updated? <==> Owns(s, id, userId)
    ensures !r.1.Updated? ==> r.0 == s
    ensures r.1.Updated? ==>
              exists i :: 0 <= i < |s.records| && s.records[i].id == id && s.records[i].userId == userId
                          && r.0.records == s.records[i := r.1.record]
                          && r.1.record.id == id && r.1.record.userId == userId
                          && r.1.record.createdAt == s.records[i].createdAt
                          && r.1.record.fullName == req.fullName.GetOr(s.records[i].fullName)
    ensures r.1.Updated? ==>
              && Consistent(r.1.record)
              && Denotes(r.1.record.inputs, req.paymentHistory, req.creditUtilization,
                         req.creditAge, req.creditMix, req.hardInquiries)
    ensures r.0.nextId == s.nextId && |r.0.records| == |s.records|
    ensures forall i :: 0 <= i < |s.records| && s.records[i].userId != userId ==>
              r.0.records[i] == s.records[i]
  {
    match CheckUpdate(req)
    case Failure(e) => (s, Invalid(e))
    case Success(p) =>
      match FindRecord(s.records, id, userId)
      case None => (s, NotFound)
      case Some(i) =>
        var prev := s.records[i];
        var a := Build(prev.id, prev.userId, req.fullName.GetOr(prev.fullName), p, prev.createdAt);
        (Store(s.records[i := a], s.nextId), Updated(a))
  }

  // ---------------------------------------------------------------------------
  // The collection invariant
  // ---------------------------------------------------------------------------

  /** Appending a consistent record under the counter's id, then bumping the counter,
      keeps the store valid. */
  lemma AppendPreservesValid(s: Store, a: Assessment)
    requires Valid(s) && a.id == s.nextId && Consistent(a)
    ensures Valid(Store(s.records + [a], s.nextId + 1))
  {
    var rs := s.records + [a];
    forall j | 0 <= j < |rs|
      ensures rs[j].id < s.nextId + 1 && Consistent(rs[j])
    {
      if j < |s.records| {
        assert rs[j] == s.records[j];
      }
    }
    forall j, k | 0 <= j < k < |rs|
      ensures rs[j].id != rs[k].id
    {
      assert rs[j] == s.records[j];
    }
  }

  lemma AnalyzePreservesValid(s: Store, userId: nat, req: AnalyzeRequest, now: int)
    requires Valid(s)
    ensures Valid(Analyze(s, userId, req, now).0)
  {
    var c := CheckAnalyze(req);
    if c.Success? {
      var (name, p) := c.value;
      AppendPreservesValid(s, Build(s.nextId, userId, name, p, now));
    }
  }

  lemma DeletePreservesValid(s: Store, id: RecordId, userId: nat)
    requires Valid(s)
    ensures Valid(Delete(s, id, userId).0)
  {
    var (s', ok) := Delete(s, id, userId);
    if ok {
      var i := FindRecord(s.records, id, userId).value;
      assert s'.records == RemoveAt(s.records, i);
      forall j, k | 0 <= j < k < |s'.records|
        ensures s'.records[j].id != s'.records[k].id
      {
        var j' := if j < i then j else j + 1;
        var k' := if k < i then k else k + 1;
        assert s'.records[j] == s.records[j'] && s'.records[k] == s.records[k'];
      }
    }
  }

  /** Replacing a record by a consistent one with the same id keeps the store valid. */
  lemma ReplacePreservesValid(s: Store, i: nat, a: Assessment)
    requires Valid(s) && i < |s.records|
    requires a.id == s.records[i].id && Consistent(a)
    ensures Valid(Store(s.records[i := a], s.nextId))
  {
    var rs := s.records[i := a];
    forall j | 0 <= j < |rs|
      ensures rs[j].id < s.nextId && Consistent(rs[j])
    {
      if j != i {
        assert rs[j] == s.records[j];
      }
    }
    forall j, k | 0 <= j < k < |rs|
      ensures rs[j].id != rs[k].id
    {
      assert rs[j].id == s.records[j].id && rs[k].id == s.records[k].id;
    }
  }

  lemma UpdatePreservesValid(s: Store, id: RecordId, userId: nat, req: UpdateRequest)
    requires Valid(s)
    ensures Valid(Update(s, id, userId, req).0)
  {
    if Owns(s, id, userId) {
      var p := CheckUpdate(req).value;
      var i := FindRecord(s.records, id, userId).value;
      var prev := s.records[i];
      var a := Build(prev.id, prev.userId, req.fullName.GetOr(prev.fullName), p, prev.createdAt);
      ReplacePreservesValid(s, i, a);
    }
  }

  /** Removing a record leaves no other record with its id when ids are distinct. */
  lemma RemoveAtDropsId(rs: seq<Assessment>, i: nat)
    requires IdsDistinct(rs) && i < |rs|
    ensures forall k :: 0 <= k < |RemoveAt(rs, i)| ==> RemoveAt(rs, i)[k].id != rs[i].id
  {
    var r := RemoveAt(rs, i);
    forall k | 0 <= k < |r|
      ensures r[k].id != rs[i].id
    {
      var k' := if k < i then k else k + 1;
      assert r[k] == rs[k'];
    }
  }

  /** With distinct ids, no record with the deleted id is left in the collection. */
  lemma DeleteRemovesId(s: Store, id: RecordId, userId: nat)
    requires IdsDistinct(s.records) && Owns(s, id, userId)
    ensures forall k :: 0 <= k < |Delete(s, id, userId).0.records| ==>
              Delete(s, id, userId).0.records[k].id != id
  {
    var i := FindRecord(s.records, id, userId).value;
    RemoveAtDropsId(s.records, i);
  }

  /** With distinct ids, a deleted record is gone from its owner's listing. */
  lemma DeleteThenList(s: Store, id: RecordId, userId: nat)
    requires Valid(s) && Owns(s, id, userId)
    ensures forall a :: a in List(Delete(s, id, userId).0, userId) ==> a.id != id
  {
    var s' := Delete(s, id, userId).0;
    DeleteRemovesId(s, id, userId);
    forall a | a in List(s', userId)
      ensures a.id != id
    {
      assert a in s'.records;
      var k :| 0 <= k < |s'.records| && s'.records[k] == a;
    }
  }

  /** A listed record is one of the store's, so it carries the outputs of its inputs. */
  lemma ListedRecordIsConsistent(s: Store, userId: nat, a: Assessment)
    requires Valid(s) && a in List(s, userId)
    ensures a.userId == userId && Consistent(a)
    ensures 300 <= a.estimatedScore <= 900
  {
    assert a in s.records;
    var j :| 0 <= j < |s.records| && s.records[j] == a;
  }
}

=== FILE: Dashboard.dfy ===
/** The pure helpers of the dashboard page: the score colour and background bands, the
    tier histogram behind the pie chart, the average score and the oldest-first trend
    series (client/src/pages/Dashboard.js:32-44, 134-165, 208). The history is the list
    `GET /users` returns. */
module Dashboard {

  import opened Wrappers
  import opened Scoring
  import opened Assessments

  // ---------------------------------------------------------------------------
  // Score bands
  // ---------------------------------------------------------------------------

  const SuccessColor: string := "var(--success)"
  const PrimaryColor: string := "var(--primary)"
  const WarningColor: string := "var(--warning)"
  const DangerColor: string := "var(--danger)"

  const SuccessBg: string := "rgba(16, 185, 129, 0.1)"
  const PrimaryBg: string := "rgba(99, 102, 241, 0.1)"
  const WarningBg: string := "rgba(245, 158, 11, 0.1)"
  const DangerBg: string := "rgba(239, 68, 68, 0.1)"

  /** `getScoreColor`: the three upper bands share the risk tiers' thresholds; Poor and
      Very Poor share the danger colour. */
  function ScoreColor(score: int): (c: string)
    ensures c == SuccessColor <==> RiskLevel(score) == Excellent
    ensures c == PrimaryColor <==> RiskLevel(score) == Good
    ensures c == WarningColor <==> RiskLevel(score) == Average
    ensures c == DangerColor <==> RiskLevel(score).Rank() <= Poor.Rank()
  {
    if score >= 750 then SuccessColor
    else if score >= 700 then PrimaryColor
    else if score >= 650 then WarningColor
    else DangerColor
  }

  /** `getScoreBg`: the same thresholds as the colour, with translucent backgrounds. */
  function ScoreBg(score: int): (b: string)
    ensures b == SuccessBg <==> RiskLevel(score) == Excellent
    ensures b == PrimaryBg <==> RiskLevel(score) == Good
    ensures b == WarningBg <==> RiskLevel(score) == Average
    ensures b == DangerBg <==> RiskLevel(score).Rank() <= Poor.Rank()
  {
    if score >= 750 then SuccessBg
    else if score >= 700 then PrimaryBg
    else if score >= 650 then WarningBg
    else DangerBg
  }

  /** Colour and background always pick the same band: two scores share a colour exactly
      when they share a background. */
  lemma ColorAndBgAgree(s: int, t: int)
    ensures ScoreColor(s) == ScoreColor(t) <==> ScoreBg(s) == ScoreBg(t)
  {
  }

  // ---------------------------------------------------------------------------
  // Tier histogram
  // ---------------------------------------------------------------------------

  /** The five labels the counts object starts with. */
  const TierLabels: set<string> := {"Excellent", "Good", "Average", "Poor", "Very Poor"}

  /** How many history items carry `riskLevel == name`. */
  function Occurrences(history: seq<Assessment>, name: string): nat {
    if |history| == 0 then 0
    else Occurrences(history[..|history| - 1], name)
         + (if history[|history| - 1].riskLevel == name then 1 else 0)
  }

  lemma {:induction false} OccurrencesOfUnseen(history: seq<Assessment>, name: string)
    requires forall i :: 0 <= i < |history| ==> history[i].riskLevel != name
    ensures Occurrences(history, name) == 0
  {
    if |history| > 0 {
      var prefix := history[..|history| - 1];
      assert forall i :: 0 <= i < |prefix| ==> prefix[i] == history[i];
      OccurrencesOfUnseen(prefix, name);
    }
  }

  /** The labels seen in the first `k` history items. */
  function LabelsSeen(history: seq<Assessment>, k: nat): set<string>
    requires k <= |history|
  {
    set j | 0 <= j < k :: history[j].riskLevel
  }

  /** `pieChartData`'s counts: all five labels start at 0 and each history item adds one
      to the counter of its own label, creating that counter when the label is new. */
  method TierCounts(history: seq<Assessment>) returns (counts: map<string, nat>)
    ensures counts.Keys == TierLabels + LabelsSeen(history, |history|)
    ensures forall name :: name in counts ==> counts[name] == Occurrences(history, name)
  {
    counts := map["Excellent" := 0, "Good" := 0, "Average" := 0, "Poor" := 0, "Very Poor" := 0];
    var k := 0;
    while k < |history|
      invariant k <= |history|
      invariant counts.Keys == TierLabels + LabelsSeen(history, k)
      invariant forall name :: name in counts ==> counts[name] == Occurrences(history[..k], name)
    {
      var name := history[k].riskLevel;
      var before := if name in counts then counts[name] else 0;
      if name !in counts {
        UnseenLabel(history, k, name);
      }
      assert before == Occurrences(history[..k], name);
      var next := counts[name := before + 1];
      forall n | n in next
        ensures next[n] == Occurrences(history[..k + 1], n)
      {
        OccurrencesStep(history, k, n);
      }
      LabelsSeenStep(history, k);
      counts := next;
      k := k + 1;
    }
    assert history[..k] == history;
  }

  lemma OccurrencesStep(history: seq<Assessment>, k: nat, name: string)
    requires k < |history|
    ensures Occurrences(history[..k + 1], name)
            == Occurrences(history[..k], name) + (if history[k].riskLevel == name then 1 else 0)
  {
    assert history[..k + 1][..k] == history[..k];
  }

  lemma LabelsSeenStep(history: seq<Assessment>, k: nat)
    requires k < |history|
    ensures LabelsSeen(history, k + 1) == LabelsSeen(history, k) + {history[k].riskLevel}
  {
  }

  lemma UnseenLabel(history: seq<Assessment>, k: nat, name: string)
    requires k <= |history| && name !in LabelsSeen(history, k)
    ensures Occurrences(history[..k], name) == 0
  {
    var prefix := history[..k];
    forall i | 0 <= i < |prefix| ensures prefix[i].riskLevel != name {
      assert prefix[i] == history[i];
    }
    OccurrencesOfUnseen(prefix, name);
  }

  lemma LabelIsTierLabel(t: Tier)
    ensures t.Label() in TierLabels
  {
  }

  /** True when every history item carries one of the five tier labels. */
  predicate TierLabelled(history: seq<Assessment>) {
    forall i :: 0 <= i < |history| ==> history[i].riskLevel in TierLabels
  }

  /** When every item carries a tier label, the five counters add up to the history length. */
  lemma {:induction false} FiveCountsSum(history: seq<Assessment>)
    requires TierLabelled(history)
    ensures Occurrences(history, "Excellent") + Occurrences(history, "Good")
            + Occurrences(history, "Average") + Occurrences(history, "Poor")
            + Occurrences(history, "Very Poor") == |history|
  {
    if |history| > 0 {
      var prefix := history[..|history| - 1];
      assert TierLabelled(prefix) by {
        forall i | 0 <= i < |prefix| ensures prefix[i].riskLevel in TierLabels {
          assert prefix[i] == history[i];
        }
      }
      FiveCountsSum(prefix);
    }
  }

  /** Every record of a valid store carries a tier label, so the histogram of a listing
      accounts for every listed record. */
  lemma ListingIsTierLabelled(s: Store, userId: nat)
    requires Valid(s)
    ensures TierLabelled(List(s, userId))
  {
    var h := List(s, userId);
    forall i | 0 <= i < |h|
      ensures h[i].riskLevel in TierLabels
    {
      ListedRecordIsConsistent(s, userId, h[i]);
      LabelIsTierLabel(RiskLevel(h[i].estimatedScore));
    }
  }

  /** The label the pie chart counts for a listed record reads back as the tier of that
      record's own score. */
  lemma ListedLabelIsScoreTier(s: Store, userId: nat, i: nat)
    requires Valid(s) && i < |List(s, userId)|
    ensures TierOfLabel(List(s, userId)[i].riskLevel) == Some(RiskLevel(List(s, userId)[i].estimatedScore))
  {
    var a := List(s, userId)[i];
    ListedRecordIsConsistent(s, userId, a);
    var t := TierOfLabel(a.riskLevel);
    assert t.Some?;
    LabelInjective(t.value, RiskLevel(a.estimatedScore));
  }

  // ---------------------------------------------------------------------------
  // Average score
  // ---------------------------------------------------------------------------

  function SumScores(history: seq<Assessment>): int {
    if |history| == 0 then 0
    else SumScores(history[..|history| - 1]) + history[|history| - 1].estimatedScore
  }

  /** The "AVG SCORE" figure: 0 for an empty history, else the mean rounded half up. */
  function AverageScore(history: seq<Assessment>): (avg: int)
    ensures |history| == 0 ==> avg == 0
    ensures |history| > 0 ==>
              var mean := SumScores(history) as real / |history| as real;
              mean - 0.5 < avg as real <= mean + 0.5
  {
    if |history| == 0 then 0
    else Round(SumScores(history) as real / |history| as real)
  }

  /** A score bound shared by every item, below or above. */
  predicate AllAtLeast(history: seq<Assessment>, lo: int) {
    forall i :: 0 <= i < |history| ==> lo <= history[i].estimatedScore
  }

  predicate AllAtMost(history: seq<Assessment>, hi: int) {
    forall i :: 0 <= i < |history| ==> history[i].estimatedScore <= hi
  }

  lemma {:induction false} SumBounds(history: seq<Assessment>, lo: int, hi: int)
    requires AllAtLeast(history, lo) && AllAtMost(history, hi)
    ensures lo * |history| <= SumScores(history) <= hi * |history|
  {
    if |history| > 0 {
      var prefix := history[..|history| - 1];
      assert AllAtLeast(prefix, lo) && AllAtMost(prefix, hi) by {
        forall i | 0 <= i < |prefix| ensures prefix[i] == history[i] {}
      }
      SumBounds(prefix, lo, hi);
      assert lo * |history| == lo * |prefix| + lo;
      assert hi * |history| == hi * |prefix| + hi;
    }
  }

  /** The average lies between any lower and upper bound of the scores it averages, so
      between the lowest and highest score. */
  lemma AverageWithinBounds(history: seq<Assessment>, lo: int, hi: int)
    requires |history| > 0
    requires AllAtLeast(history, lo) && AllAtMost(history, hi)
    ensures lo <= AverageScore(history) <= hi
  {
    SumBounds(history, lo, hi);
    MeanOfBoundedSum(SumScores(history), |history|, lo, hi);
  }

  /** A total between n times lo and n times hi has its mean between lo and hi. */
  lemma MeanOfBoundedSum(sum: int, n: nat, lo: int, hi: int)
    requires n > 0 && lo * n <= sum <= hi * n
    ensures lo as real <= sum as real / n as real <= hi as real
  {
    var mean := sum as real / n as real;
    assert mean * n as real == sum as real;
    assert (lo * n) as real == lo as real * n as real;
    assert (hi * n) as real == hi as real * n as real;
    MeanBetween(mean, n as real, lo as real, hi as real);
  }

  lemma MeanBetween(mean: real, n: real, lo: real, hi: real)
    requires n > 0.0 && lo * n <= mean * n <= hi * n
    ensures lo <= mean <= hi
  {
    assert (mean - lo) * n >= 0.0;
    assert (hi - mean) * n >= 0.0;
  }

  /** The average of a listing from a valid store is itself a score in [300, 900]. */
  lemma AverageOfListingIsAScore(s: Store, userId: nat)
    requires Valid(s) && |List(s, userId)| > 0
    ensures 300 <= AverageScore(List(s, userId)) <= 900
  {
    var h := List(s, userId);
    forall i | 0 <= i < |h|
      ensures 300 <= h[i].estimatedScore <= 900
    {
      ListedRecordIsConsistent(s, userId, h[i]);
    }
    AverageWithinBounds(h, 300, 900);
  }

  // ---------------------------------------------------------------------------
  // Trend series
  // ---------------------------------------------------------------------------

  /** `[...history].reverse()`: a reversed copy, the input itself untouched. */
  function Trend(history: seq<Assessment>): (r: seq<Assessment>)
    ensures |r| == |history|
    ensures forall i :: 0 <= i < |r| ==> r[i] == history[|history| - 1 - i]
  {
    if |history| == 0 then [] else [history[|history| - 1]] + Trend(history[..|history| - 1])
  }

  /** Sorted by `createdAt`, oldest first. */
  predicate OldestFirst(rs: seq<Assessment>) {
    forall i, j :: 0 <= i < j < |rs| ==> rs[i].createdAt <= rs[j].createdAt
  }

  /** The newest-first listing becomes an oldest-first series. */
  lemma TrendIsOldestFirst(history: seq<Assessment>)
    requires NewestFirst(history)
    ensures OldestFirst(Trend(history))
  {
  }

  /** Reversing twice gives the history back. */
  lemma TrendInvolution(history: seq<Assessment>)
    ensures Trend(Trend(history)) == history
  {
  }

  /** The trend's data points: the scores, oldest first. */
  function TrendScores(history: seq<Assessment>): (scores: seq<int>)
    ensures |scores| == |history|
    ensures forall i :: 0 <= i < |scores| ==> scores[i] == history[|history| - 1 - i].estimatedScore
  {
    var sorted := Trend(history);
    seq(|sorted|, i requires 0 <= i < |sorted| => sorted[i].estimatedScore)
  }
}

=== FILE: Requests.dfy ===
/** The request boundary of the scoring routes: the missing-field gate of `/analyze`
    (server/server.js:317-329), the `Number(x) || 0` and `creditMix || "poor"` coercions
    (server/server.js:331-338, 461-468) and the NaN checks that follow them
    (server/server.js:341-344, 470-472). */
module Requests {

  import opened Wrappers
  import opened Scoring

  /** A numeric field of a JSON request body. `NotNumeric` is any value that JavaScript's
      `Number()` turns into NaN (a word, an object, ...); a numeric string is modelled as
      the `Num` of its value. */
  datatype NumField = Undefined | Null | Num(x: real) | NotNumeric

  /** A text field of a JSON request body. */
  datatype TextField = Absent | NullText | Text(s: string)

  /** A JavaScript number: a finite value or NaN. */
  datatype JsNumber = Finite(value: real) | NaN

  /** JavaScript `Number(x)`: `undefined` and non-numeric values give NaN, `null` gives 0. */
  function ToNumber(f: NumField): JsNumber {
    match f
    case Undefined => NaN
    case Null => Finite(0.0)
    case Num(x) => Finite(x)
    case NotNumeric => NaN
  }

  /** JavaScript `n || 0`: NaN and 0 are the falsy numbers, both replaced by 0. */
  function OrZero(n: JsNumber): JsNumber {
    match n
    case NaN => Finite(0.0)
    case Finite(x) => if x == 0.0 then Finite(0.0) else n
  }

  /** `Number(x) || 0`: never NaN, and the field's own value whenever it has one. */
  function Coerce(f: NumField): (n: JsNumber)
    ensures n.Finite?
    ensures n.value == (if f.Num? then f.x else 0.0)
  {
    OrZero(ToNumber(f))
  }

  /** JavaScript truthiness of a text field: present and non-empty. */
  predicate Truthy(f: TextField) {
    f.Text? && f.s != ""
  }

  /** `creditMix || "poor"`: the mix is always truthy, so coercing it again changes nothing. */
  function CoerceMix(f: TextField): (mix: string)
    ensures mix != ""
    ensures Truthy(f) ==> mix == f.s
    ensures !Truthy(f) ==> mix == "poor"
  {
    if Truthy(f) then f.s else "poor"
  }

  /** The default is a fixed point: a coerced mix sent back coerces to itself. */
  lemma CoerceMixIdempotent(f: TextField)
    ensures Truthy(Text(CoerceMix(f)))
    ensures CoerceMix(Text(CoerceMix(f))) == CoerceMix(f)
  {
  }

  /** A field the `/analyze` gate accepts as given: neither `undefined` nor `null`. */
  predicate Given(f: NumField) {
    !f.Undefined? && !f.Null?
  }

  /** The body of a `POST /analyze` request. */
  datatype AnalyzeRequest = AnalyzeRequest(
    fullName: TextField,
    paymentHistory: NumField,
    creditUtilization: NumField,
    creditAge: NumField,
    creditMix: TextField,
    hardInquiries: NumField)

  /** The body of a `PUT /users/:id` request; an absent name is `None`. */
  datatype UpdateRequest = UpdateRequest(
    fullName: Option<string>,
    paymentHistory: NumField,
    creditUtilization: NumField,
    creditAge: NumField,
    creditMix: TextField,
    hardInquiries: NumField)

  /** The 400 answers of the scoring routes. */
  datatype RequestError =
    | FieldsRequired      // "All fields are required"
    | NumbersRequired     // "Numeric fields must contain valid numbers" / "Invalid numeric values"

  /** The `data` object both routes build: the name, the coerced numbers and the mix. */
  datatype Coerced = Coerced(
    paymentHistory: JsNumber,
    creditUtilization: JsNumber,
    creditAge: JsNumber,
    creditMix: string,
    hardInquiries: JsNumber)

  function CoerceFields(
    paymentHistory: NumField, creditUtilization: NumField, creditAge: NumField,
    creditMix: TextField, hardInquiries: NumField): Coerced
  {
    Coerced(Coerce(paymentHistory), Coerce(creditUtilization), Coerce(creditAge),
            CoerceMix(creditMix), Coerce(hardInquiries))
  }

  /** The `isNaN` test on the four coerced numbers, then the profile they form. */
  function CheckNumbers(d: Coerced): (r: Result<Profile, RequestError>)
    ensures r.Failure? <==>
              d.paymentHistory.NaN? || d.creditUtilization.NaN? || d.creditAge.NaN? || d.hardInquiries.NaN?
    ensures r.Failure? ==> r.error == NumbersRequired
    ensures r.Success? ==>
              && r.value.paymentHistory == d.paymentHistory.value
              && r.value.creditUtilization == d.creditUtilization.value
              && r.value.creditAge == d.creditAge.value
              && r.value.hardInquiries == d.hardInquiries.value
              && r.value.creditMix == d.creditMix
  {
    if d.paymentHistory.NaN? || d.creditUtilization.NaN? || d.creditAge.NaN? || d.hardInquiries.NaN?
    then Failure(NumbersRequired)
    else Success(Profile(d.paymentHistory.value, d.creditUtilization.value, d.creditAge.value,
                         d.creditMix, d.hardInquiries.value))
  }

  /** Both routes' NaN checks are dead: after `Number(x) || 0` no field is NaN, so the
      check accepts every field list and yields the profile the fields denote. */
  lemma NaNCheckIsDead(paymentHistory: NumField, creditUtilization: NumField, creditAge: NumField,
                       creditMix: TextField, hardInquiries: NumField)
    ensures var r := CheckNumbers(CoerceFields(paymentHistory, creditUtilization, creditAge,
                                               creditMix, hardInquiries));
            && r.Success?
            && Denotes(r.value, paymentHistory, creditUtilization, creditAge, creditMix, hardInquiries)
  {
  }

  /** The profile a field list denotes: each number its value or 0, the mix or "poor". */
  predicate Denotes(p: Profile, paymentHistory: NumField, creditUtilization: NumField,
                    creditAge: NumField, creditMix: TextField, hardInquiries: NumField)
  {
    && p.paymentHistory == (if paymentHistory.Num? then paymentHistory.x else 0.0)
    && p.creditUtilization == (if creditUtilization.Num? then creditUtilization.x else 0.0)
    && p.creditAge == (if creditAge.Num? then creditAge.x else 0.0)
    && p.hardInquiries == (if hardInquiries.Num? then hardInquiries.x else 0.0)
    && (Truthy(creditMix) ==> p.creditMix == creditMix.s)
    && (!Truthy(creditMix) ==> p.creditMix == "poor")
  }

  /** The `/analyze` gate: a falsy name or mix, or an `undefined`/`null` number, is
      rejected with "All fields are required"; everything else is accepted, because after
      `Number(x) || 0` the NaN check has nothing left to reject. */
  function CheckAnalyze(req: AnalyzeRequest): (r: Result<(string, Profile), RequestError>)
    ensures r.Failure? <==>
              !Truthy(req.fullName) || !Truthy(req.creditMix)
              || !Given(req.paymentHistory) || !Given(req.creditUtilization)
              || !Given(req.creditAge) || !Given(req.hardInquiries)
    ensures r.Failure? ==> r.error == FieldsRequired
    ensures r.Success? ==> r.value.0 == req.fullName.s && r.value.0 != ""
    ensures r.Success? ==> r.value.1.creditMix == req.creditMix.s
    ensures r.Success? ==> Denotes(r.value.1, req.paymentHistory, req.creditUtilization,
                                   req.creditAge, req.creditMix, req.hardInquiries)
  {
    if !Truthy(req.fullName)
       || !Given(req.paymentHistory) || !Given(req.creditUtilization) || !Given(req.creditAge)
       || !Truthy(req.creditMix)
       || !Given(req.hardInquiries)
    then Failure(FieldsRequired)
    else
      var data := CoerceFields(req.paymentHistory, req.creditUtilization, req.creditAge,
                               req.creditMix, req.hardInquiries);
      match CheckNumbers(data)
      case Failure(e) => Failure(e)
      case Success(p) => Success((req.fullName.s, p))
  }

  /** The PUT route's coercion: there is no missing-field gate, and its NaN check cannot
      fire either, so every body yields a profile. */
  function CheckUpdate(req: UpdateRequest): (r: Result<Profile, RequestError>)
    ensures r.Success?
    ensures r.Success? ==> Denotes(r.value, req.paymentHistory, req.creditUtilization,
                                   req.creditAge, req.creditMix, req.hardInquiries)
  {
    CheckNumbers(CoerceFields(req.paymentHistory, req.creditUtilization, req.creditAge,
                              req.creditMix, req.hardInquiries))
  }

  /** A non-numeric payment history passes the `/analyze` gate and is scored as 0. */
  lemma NonNumericScoresAsZero(req: AnalyzeRequest)
    requires Truthy(req.fullName) && Truthy(req.creditMix)
    requires req.paymentHistory == NotNumeric
    requires Given(req.creditUtilization) && Given(req.creditAge) && Given(req.hardInquiries)
    ensures CheckAnalyze(req).Success?
    ensures CheckAnalyze(req).value.1.paymentHistory == 0.0
  {
  }
}

=== FILE: Scoring.dfy ===
/** The scoring engine of the server: the weighted credit score, the risk tier step
    function and the ordered improvement tips (server/server.js:69-123). Numbers are
    exact reals; `Math.round` is rounding half up. */
module Scoring {

  import opened Wrappers

  /** The five inputs of an assessment after the request boundary has coerced them to
      numbers. They are NOT clamped yet: the score clamps its own copies, while the
      tip rules read these values as they are. */
  datatype Profile = Profile(
    paymentHistory: real,
    creditUtilization: real,
    creditAge: real,
    creditMix: string,
    hardInquiries: real)

  function Max(a: real, b: real): real { if a >= b then a else b }

  function Min(a: real, b: real): real { if a <= b then a else b }

  /** JavaScript `Math.round` on an exact value: halves go up. */
  function Round(x: real): (n: int)
    ensures x - 0.5 < n as real <= x + 0.5
  {
    (x + 0.5).Floor
  }

  lemma RoundMonotone(x: real, y: real)
    requires x <= y
    ensures Round(x) <= Round(y)
  {
  }

  /** Points contributed by the credit mix: 10% of the 600-point range for "good",
      5% for "average", nothing for any other string. */
  function MixBonus(mix: string): real {
    if mix == "good" then 0.10 * 600.0
    else if mix == "average" then 0.05 * 600.0
    else 0.0
  }

  /** The weighted sum before rounding, with the inputs clamped the way the engine
      clamps them: percentages into [0, 100], age and inquiries at 0 from below. */
  function RawScore(p: Profile): (s: real)
    ensures 300.0 <= s <= 900.0
  {
    var paymentHistory := Max(0.0, Min(100.0, p.paymentHistory));
    var creditUtilization := Max(0.0, Min(100.0, p.creditUtilization));
    var creditAge := Max(0.0, p.creditAge);
    var hardInquiries := Max(0.0, p.hardInquiries);
    300.0
    + (paymentHistory / 100.0) * 0.35 * 600.0
    + ((100.0 - creditUtilization) / 100.0) * 0.30 * 600.0
    + Min(creditAge / 10.0, 1.0) * 0.15 * 600.0
    + MixBonus(p.creditMix)
    + Max((5.0 - hardInquiries) / 5.0, 0.0) * 0.10 * 600.0
  }

  /** `calculateCIBIL`: the rounded weighted sum, clamped to [300, 900]. */
  function Score(p: Profile): (score: int)
    ensures 300 <= score <= 900
  {
    var rounded := Round(RawScore(p));
    if rounded < 300 then 300 else if rounded > 900 then 900 else rounded
  }

  /** The final clamp never changes anything: the rounded sum already lies in range. */
  lemma ClampNeverBinds(p: Profile)
    ensures Score(p) == Round(RawScore(p))
    ensures RawScore(p) - 0.5 < Score(p) as real <= RawScore(p) + 0.5
  {
    var s := RawScore(p);
    RoundMonotone(300.0, s);
    RoundMonotone(s, 900.0);
  }

  /** Profiles that agree on everything except the payment history. */
  predicate SameButPayment(p: Profile, q: Profile) {
    p.creditUtilization == q.creditUtilization && p.creditAge == q.creditAge
    && p.creditMix == q.creditMix && p.hardInquiries == q.hardInquiries
  }

  predicate SameButUtilization(p: Profile, q: Profile) {
    p.paymentHistory == q.paymentHistory && p.creditAge == q.creditAge
    && p.creditMix == q.creditMix && p.hardInquiries == q.hardInquiries
  }

  predicate SameButAge(p: Profile, q: Profile) {
    p.paymentHistory == q.paymentHistory && p.creditUtilization == q.creditUtilization
    && p.creditMix == q.creditMix && p.hardInquiries == q.hardInquiries
  }

  predicate SameButInquiries(p: Profile, q: Profile) {
    p.paymentHistory == q.paymentHistory && p.creditUtilization == q.creditUtilization
    && p.creditAge == q.creditAge && p.creditMix == q.creditMix
  }

  predicate SameButMix(p: Profile, q: Profile) {
    p.paymentHistory == q.paymentHistory && p.creditUtilization == q.creditUtilization
    && p.creditAge == q.creditAge && p.hardInquiries == q.hardInquiries
  }

  /** The rank the score gives a credit mix: "good" above "average" above anything else. */
  function MixRank(mix: string): nat {
    if mix == "good" then 2 else if mix == "average" then 1 else 0
  }

  /** A larger score can only come from a larger raw sum, once rounding and the clamp
      are applied. */
  lemma ScoreMonotone(p: Profile, q: Profile)
    requires RawScore(p) <= RawScore(q)
    ensures Score(p) <= Score(q)
  {
    RoundMonotone(RawScore(p), RawScore(q));
  }

  lemma ScoreNonDecreasingInPayment(p: Profile, q: Profile)
    requires SameButPayment(p, q) && p.paymentHistory <= q.paymentHistory
    ensures Score(p) <= Score(q)
  {
    ScoreMonotone(p, q);
  }

  lemma ScoreNonDecreasingInAge(p: Profile, q: Profile)
    requires SameButAge(p, q) && p.creditAge <= q.creditAge
    ensures Score(p) <= Score(q)
  {
    ScoreMonotone(p, q);
  }

  lemma ScoreNonIncreasingInUtilization(p: Profile, q: Profile)
    requires SameButUtilization(p, q) && p.creditUtilization <= q.creditUtilization
    ensures Score(q) <= Score(p)
  {
    ScoreMonotone(q, p);
  }

  lemma ScoreNonIncreasingInInquiries(p: Profile, q: Profile)
    requires SameButInquiries(p, q) && p.hardInquiries <= q.hardInquiries
    ensures Score(q) <= Score(p)
  {
    ScoreMonotone(q, p);
  }

  lemma ScoreFollowsMixRank(p: Profile, q: Profile)
    requires SameButMix(p, q) && MixRank(p.creditMix) <= MixRank(q.creditMix)
    ensures Score(p) <= Score(q)
  {
    ScoreMonotone(p, q);
  }

  /** The dashboard form's default inputs score 801 (210 + 126 + 45 + 60 + 60 above the
      base); the extremes reach the ceiling and the floor. */
  lemma ScoreExamples()
    ensures Score(Profile(100.0, 30.0, 5.0, "good", 0.0)) == 801
    ensures Score(Profile(60.0, 80.0, 1.0, "poor", 5.0)) == 471
    ensures Score(Profile(100.0, 0.0, 10.0, "good", 0.0)) == 900
    ensures Score(Profile(0.0, 100.0, 0.0, "poor", 5.0)) == 300
  {
  }

  // ---------------------------------------------------------------------------
  // Risk tier
  // ---------------------------------------------------------------------------

  /** The five risk tiers, listed from best to worst. */
  datatype Tier = Excellent | Good | Average | Poor | VeryPoor {

    /** The label the server stores and the dashboard counts. */
    function Label(): string {
      match this
      case Excellent => "Excellent"
      case Good => "Good"
      case Average => "Average"
      case Poor => "Poor"
      case VeryPoor => "Very Poor"
    }

    /** Position of the tier in the order Very Poor < Poor < Average < Good < Excellent. */
    function Rank(): nat {
      match this
      case Excellent => 4
      case Good => 3
      case Average => 2
      case Poor => 1
      case VeryPoor => 0
    }

    /** The inclusive lower bound of a named tier; Very Poor has none. */
    function Threshold(): int
      requires !VeryPoor?
    {
      match this
      case Excellent => 750
      case Good => 700
      case Average => 650
      case Poor => 600
    }
  }

  /** `getRiskLevel`: a score reaches a tier exactly when it meets that tier's threshold,
      so the tier returned is the best one whose threshold the score meets. */
  function RiskLevel(score: int): (t: Tier)
    ensures forall u: Tier :: !u.VeryPoor? ==> (score >= u.Threshold() <==> t.Rank() >= u.Rank())
  {
    if score >= 750 then Excellent
    else if score >= 700 then Good
    else if score >= 650 then Average
    else if score >= 600 then Poor
    else VeryPoor
  }

  lemma RiskLevelMonotone(s: int, s': int)
    requires s <= s'
    ensures RiskLevel(s).Rank() <= RiskLevel(s').Rank()
  {
  }

  lemma RiskLevelBoundaries()
    ensures RiskLevel(750) == Excellent && RiskLevel(749) == Good
    ensures RiskLevel(700) == Good && RiskLevel(699) == Average
    ensures RiskLevel(650) == Average && RiskLevel(649) == Poor
    ensures RiskLevel(600) == Poor && RiskLevel(599) == VeryPoor
  {
  }

  /** Distinct tiers carry distinct labels, so a stored label identifies its tier. */
  lemma LabelInjective(t: Tier, u: Tier)
    requires t.Label() == u.Label()
    ensures t == u
  {
  }

  /** The tier whose label is `label`, if `label` is one of the five. */
  function TierOfLabel(name: string): (t: Option<Tier>)
    ensures t.Some? ==> t.value.Label() == name
    ensures (exists u: Tier :: u.Label() == name) ==> t.Some?
  {
    if name == "Excellent" then Some(Excellent)
    else if name == "Good" then Some(Good)
    else if name == "Average" then Some(Average)
    else if name == "Poor" then Some(Poor)
    else if name == "Very Poor" then Some(VeryPoor)
    else None
  }

  // ---------------------------------------------------------------------------
  // Suggestions
  // ---------------------------------------------------------------------------

  /** The tips `getSuggestions` can emit, in rule order. The utilization tip quotes the
      raw utilization the request carried. */
  datatype Tip =
    | PaymentLow
    | PaymentStreak
    | UtilizationHigh(utilization: real)
    | ManyInquiries
    | YoungHistory
    | CreditMixTip
    | Strong
  {
    /** Position of the rule that emits this tip. */
    function Rank(): nat {
      match this
      case PaymentLow => 0
      case PaymentStreak => 1
      case UtilizationHigh(_) => 2
      case ManyInquiries => 3
      case YoungHistory => 4
      case CreditMixTip => 5
      case Strong => 6
    }

    /** The message text; `formatNumber` renders a JavaScript number in a template literal. */
    function Text(formatNumber: real -> string): string {
      match this
      case PaymentLow =>
        "Your payment history is below 90%. Focus on paying all bills on time to boost your score."
      case PaymentStreak =>
        "Maintain your good payment streak. Even one late payment can impact your score."
      case UtilizationHigh(u) =>
        "Your credit utilization is high (" + formatNumber(u)
        + "%). Try to keep it below 30% by paying down balances."
      case ManyInquiries =>
        "You have multiple hard inquiries. Limit new credit applications for the next 6 months."
      case YoungHistory =>
        "Your credit history is relatively young. Time will naturally improve this factor; avoid closing old accounts."
      case CreditMixTip =>
        "Consider a healthy mix of secured (e.g., car loan) and unsecured (e.g., credit card) credit over time."
      case Strong =>
        "Your financial profile looks strong! Continue maintaining these healthy habits."
    }
  }

  /** The mixes the last rule flags. */
  predicate ThinMix(mix: string) {
    mix == "poor" || mix == "average"
  }

  /** True when none of the five threshold rules fires on the (unclamped) profile. */
  predicate NoRuleFires(p: Profile) {
    p.paymentHistory >= 98.0 && p.creditUtilization <= 30.0 && p.hardInquiries <= 2.0
    && p.creditAge >= 5.0 && !ThinMix(p.creditMix)
  }

  /** Tips listed in strictly increasing rule order (hence without repetition). */
  predicate InRuleOrder(tips: seq<Tip>) {
    forall i, j :: 0 <= i < j < |tips| ==> tips[i].Rank() < tips[j].Rank()
  }

  /** One `tips.push(tip)` guarded by `fires`. */
  function PushIf(tips: seq<Tip>, fires: bool, tip: Tip): seq<Tip> {
    if fires then tips + [tip] else tips
  }

  /** A push after tips of lower rank keeps the list in rule order. */
  lemma PushKeepsOrder(tips: seq<Tip>, fires: bool, tip: Tip)
    requires InRuleOrder(tips)
    requires forall i :: 0 <= i < |tips| ==> tips[i].Rank() < tip.Rank()
    ensures InRuleOrder(PushIf(tips, fires, tip))
    ensures forall i :: 0 <= i < |PushIf(tips, fires, tip)| ==> PushIf(tips, fires, tip)[i].Rank() <= tip.Rank()
  {
  }

  /** The rule behind each tip, read on the unclamped inputs: the tip is emitted exactly
      when its rule fires. The utilization tip quotes the profile's own utilization; the
      affirming tip fires when no other rule does. */
  predicate Fires(p: Profile, t: Tip) {
    match t
    case PaymentLow => p.paymentHistory < 90.0
    case PaymentStreak => 90.0 <= p.paymentHistory < 98.0
    case UtilizationHigh(u) => u == p.creditUtilization && p.creditUtilization > 30.0
    case ManyInquiries => p.hardInquiries > 2.0
    case YoungHistory => p.creditAge < 5.0
    case CreditMixTip => ThinMix(p.creditMix)
    case Strong => NoRuleFires(p)
  }

  /** The five threshold rules of `getSuggestions`, each pushing its tip in turn. */
  function RuleTips(p: Profile): (tips: seq<Tip>)
    ensures forall t :: t in tips <==> Fires(p, t) && !t.Strong?
  {
    var low := p.paymentHistory < 90.0;
    Chain(low, !low && p.paymentHistory < 98.0, p.creditUtilization > 30.0, p.creditUtilization,
          p.hardInquiries > 2.0, p.creditAge < 5.0, ThinMix(p.creditMix))
  }

  /** The push sequence itself, given which rules fire. */
  function Chain(low: bool, streak: bool, high: bool, utilization: real,
                 inquiries: bool, young: bool, thin: bool): seq<Tip>
  {
    var t1 := PushIf([], low, PaymentLow);
    var t2 := PushIf(t1, streak, PaymentStreak);
    var t3 := PushIf(t2, high, UtilizationHigh(utilization));
    var t4 := PushIf(t3, inquiries, ManyInquiries);
    var t5 := PushIf(t4, young, YoungHistory);
    PushIf(t5, thin, CreditMixTip)
  }

  /** Whatever fires, the pushes come out in rule order, and at most five of them when the
      two payment rules exclude each other. */
  lemma ChainShape(low: bool, streak: bool, high: bool, utilization: real,
                   inquiries: bool, young: bool, thin: bool)
    requires !(low && streak)
    ensures InRuleOrder(Chain(low, streak, high, utilization, inquiries, young, thin))
    ensures |Chain(low, streak, high, utilization, inquiries, young, thin)| <= 5
  {
    PushKeepsOrder([], low, PaymentLow);
    var t1 := PushIf([], low, PaymentLow);
    PushKeepsOrder(t1, streak, PaymentStreak);
    var t2 := PushIf(t1, streak, PaymentStreak);
    PushKeepsOrder(t2, high, UtilizationHigh(utilization));
    var t3 := PushIf(t2, high, UtilizationHigh(utilization));
    PushKeepsOrder(t3, inquiries, ManyInquiries);
    var t4 := PushIf(t3, inquiries, ManyInquiries);
    PushKeepsOrder(t4, young, YoungHistory);
    var t5 := PushIf(t4, young, YoungHistory);
    PushKeepsOrder(t5, thin, CreditMixTip);
    assert |t2| <= 1;
  }

  /** `getSuggestions`: the rules' tips in rule order, one to five of them, each emitted
      exactly when its rule fires; the affirming tip, alone, when none does. */
  function Suggestions(p: Profile): (tips: seq<Tip>)
    ensures forall t :: t in tips <==> Fires(p, t)
    ensures InRuleOrder(tips) && 1 <= |tips| <= 5
    ensures Strong in tips ==> tips == [Strong]
  {
    var tips := RuleTips(p);
    var low := p.paymentHistory < 90.0;
    ChainShape(low, !low && p.paymentHistory < 98.0, p.creditUtilization > 30.0, p.creditUtilization,
               p.hardInquiries > 2.0, p.creditAge < 5.0, ThinMix(p.creditMix));
    EmptyIffNoMember(tips);
    if |tips| == 0 then [Strong] else tips
  }

  lemma EmptyIffNoMember(s: seq<Tip>)
    ensures s == [] <==> forall t :: t !in s
  {
    if s != [] {
      assert s[0] in s;
    }
  }

  /** The head of a list in rule order ranks strictly below every other member. */
  lemma HeadRanksFirst(a: seq<Tip>, t: Tip)
    requires InRuleOrder(a) && |a| > 0 && t in a
    ensures t != a[0] ==> a[0].Rank() < t.Rank()
  {
    var k :| 0 <= k < |a| && a[k] == t;
  }

  /** The tail of a list in rule order is in rule order and holds the other members. */
  lemma TailOfOrdered(a: seq<Tip>)
    requires InRuleOrder(a) && |a| > 0
    ensures InRuleOrder(a[1..])
    ensures forall t :: t in a[1..] <==> t in a && t != a[0]
  {
    forall t | t in a && t != a[0]
      ensures t in a[1..]
    {
      var k :| 0 <= k < |a| && a[k] == t;
      assert a[1..][k - 1] == t;
    }
  }

  /** Two tip lists in rule order with the same members are the same list. */
  lemma {:induction false} RuleOrderDeterminesList(a: seq<Tip>, b: seq<Tip>)
    requires InRuleOrder(a) && InRuleOrder(b)
    requires forall t :: t in a <==> t in b
    ensures a == b
    decreases |a|
  {
    EmptyIffNoMember(a);
    EmptyIffNoMember(b);
    if a != [] && b != [] {
      assert a[0] in b && b[0] in a;
      HeadRanksFirst(a, b[0]);
      HeadRanksFirst(b, a[0]);
      TailOfOrdered(a);
      TailOfOrdered(b);
      RuleOrderDeterminesList(a[1..], b[1..]);
      assert a == [a[0]] + a[1..];
      assert b == [b[0]] + b[1..];
    }
  }

  /** The contract of `Suggestions` pins the list down completely: any list in rule order
      whose members are exactly the tips whose rules fire is the list the rules produce. */
  lemma SuggestionsUnique(p: Profile, tips: seq<Tip>)
    requires InRuleOrder(tips)
    requires forall t :: t in tips <==> Fires(p, t)
    ensures tips == Suggestions(p)
  {
    RuleOrderDeterminesList(tips, Suggestions(p));
  }

  /** A profile on which no rule fires gets the affirming tip alone. */
  lemma SuggestionExampleStrong()
    ensures Suggestions(Profile(100.0, 30.0, 5.0, "good", 0.0)) == [Strong]
  {
    assert Strong in Suggestions(Profile(100.0, 30.0, 5.0, "good", 0.0));
  }

  /** A profile on which every rule fires gets five tips, in rule order. */
  lemma SuggestionExampleWorst()
    ensures Suggestions(Profile(60.0, 80.0, 1.0, "poor", 5.0))
            == [PaymentLow, UtilizationHigh(80.0), ManyInquiries, YoungHistory, CreditMixTip]
  {
    var p := Profile(60.0, 80.0, 1.0, "poor", 5.0);
    SuggestionsUnique(p, [PaymentLow, UtilizationHigh(80.0), ManyInquiries, YoungHistory, CreditMixTip]);
  }

  /** A mix string other than "poor" or "average" draws no tip, even though it scores no
      mix points; its raw sum 706.5 rounds half up. */
  lemma SuggestionExampleUnknownMix()
    ensures Suggestions(Profile(95.0, 30.0, 5.0, "excellent", 2.0)) == [PaymentStreak]
    ensures Score(Profile(95.0, 30.0, 5.0, "excellent", 2.0)) == 707
  {
    var p := Profile(95.0, 30.0, 5.0, "excellent", 2.0);
    SuggestionsUnique(p, [PaymentStreak]);
  }

  /** An assessment's three computed outputs, as the server derives them from one profile. */
  datatype Outcome = Outcome(estimatedScore: int, riskLevel: Tier, suggestions: seq<Tip>)

  function Assess(p: Profile): (o: Outcome)
    ensures o.estimatedScore == Score(p) && o.suggestions == Suggestions(p)
    ensures RawScore(p) - 0.5 < o.estimatedScore as real <= RawScore(p) + 0.5
    ensures 300 <= o.estimatedScore <= 900
    ensures o.riskLevel == RiskLevel(o.estimatedScore)
    ensures forall t :: t in o.suggestions <==> Fires(p, t)
    ensures 1 <= |o.suggestions| <= 5 && InRuleOrder(o.suggestions)
  {
    ClampNeverBinds(p);
    var score := Score(p);
    Outcome(score, RiskLevel(score), Suggestions(p))
  }
}

=== FILE: Wrappers.dfy ===
/** Optional values and results with an error, shared by every module of the model. */
module Wrappers {

  /** A value that may be absent (a JavaScript `undefined`/`null` or a missing document). */
  datatype Option<+T> = None | Some(value: T) {

    /** The encapsulated value, or `default` when absent. */
    function GetOr(default: T): T {
      match this
      case Some(v) => v
      case None => default
    }
  }

  /** The outcome of an operation that either succeeds with a value or fails with an error. */
  datatype Result<+R, +E> = Success(value: R) | Failure(error: E)
}
